=== FILE: README.md ===
# Doge maze game: maze generator and level rules in Dafny

This project models the two pieces of logic in `main.js` of a Phaser maze game.

**The maze generator `generateMaze`.** It has two phases:
- a randomized depth-first carve over the odd-coordinate lattice, starting at (1,1);
- loop injection, which opens a sampled interior wall when it has at least two open neighbours.

**The game-state rules of the `PlayLevel` scene.** These cover:
- the per-level parameters;
- dots and their chain bonus;
- steaks, power mode and the doubling combo;
- the four special items;
- enemy contact, lives and game over;
- the high score;
- the power-mode flee override and the charger's (`'grumpy'`) hysteresis;
- the level-complete check.

Randomness is made into parameters:
- the direction shuffle drawn by each `carve` call;
- the cells sampled by the injection trials;
- the distances the AI sees.

Phaser's one-shot `delayedCall`s are explicit pending timers. `Game.Fire` lets any pending timer go off next, so the properties about timers hold whatever order their due times give them.

Modules:
- `Maze` (`maze.dfy`): the grid, reachability, `Carve`/`CarveDirs`, the injection loop, `GenerateMaze`.
- `Levels` (`levels.dfy`): the formulas `create` derives from the level number.
- `EnemyAi` (`enemy_ai.dfy`): the flee override, the charger step, and the respawn acceptance test.
- `Game` (`game.dfy`): the session record and one pure function per event or timer.
- `GameProps` (`game_props.dfy`): the invariant all events keep, and the scoring and timer properties that span several events.

Behaviours of the code worth knowing before reading the contracts:
- A chain of dots pays 10, 15, 20, …: the n-th dot of an unbroken chain is worth `10 + 5*(n-1)` (main.js:331).
- The player's speed cap is whichever item set it last (main.js:357, 368). An expiry restores the base cap only when the other boost is not running (main.js:362, 375). So a super snack eaten during a speed boost lowers the cap, and a boost taken during a snack leaves its 1.5× cap in force when it ends.
- The charger is a boolean `isCharging` plus a 400 ms commit (main.js:480-489). The commit fires even if power mode started during the wind-up.
- The respawn search samples without bound (main.js:406-413). Only its acceptance test is modelled.

## Model

| member | source | states |
|---|---|---|
| Maze.AllWalls | main.js:90 | the starting grid has `height` rows of `width` cells, all `'#'` |
| Maze.OpenStep | main.js:95-96 | one carve step opens the wall cell in between and the lattice neighbour beyond it; no cell closes; the set of interior walls strictly shrinks (the termination measure); a connected grid stays connected |
| Maze.StepGridLatticeFrame | main.js:96 | of the lattice cells, a carve step changes only the neighbour it reaches |
| Maze.Carve | main.js:91-99 | `carve(x,y)` only opens interior cells; it leaves every direction of the shuffle done from (x,y) (the neighbour is open or outside the interior); every lattice cell it opens is expanded the same way; it keeps a connected grid connected |
| Maze.CarveDirs | main.js:93-98 | the direction loop leaves every listed direction done, opens only interior cells, and keeps connectivity; it terminates because each recursive carve removes an interior wall |
| Maze.CarveCombine | main.js:95-97 | a successful step, the recursive carve from the neighbour and the rest of the loop compose: expansions made earlier survive later carving |
| Maze.LatticeReached | main.js:92-100 | when every open lattice cell has been expanded with a full permutation of the four steps, every odd lattice cell is open, by induction on x+y from (1,1) |
| Maze.CarveFromStart | main.js:100 | carving from (1,1) on the all-wall grid gives a grid of walls and floors with a wall border, in which every lattice cell is open and every open cell is reachable from (1,1) |
| Maze.OpenNextToOpen | main.js:96 | opening a cell orthogonally next to a cell reachable from (1,1) keeps every open cell reachable |
| Maze.StartConnected | main.js:100 | the grid with only (1,1) open is connected |
| Maze.OpenNeighbours | main.js:105-107 | the neighbour count of an interior cell is between 0 and 4 |
| Maze.OpenNeighbour | main.js:105-107 | a cell with a positive count has an orthogonally adjacent open cell |
| Maze.InjectAt | main.js:104-108 | one trial leaves the sampled cell open exactly when it was open, or was a wall with at least two open neighbours; all other cells are unchanged; connectivity is kept |
| Maze.InjectAll | main.js:101-110 | the trials in sequence never close a cell; every cell they change went from wall to open, was sampled, and ends with at least two open neighbours; connectivity is kept |
| Maze.Trial | main.js:104-108 | the loop body's if-chain computes the same grid as the reference trial `InjectAt` |
| Maze.InjectLoops | main.js:101-110 | the loop runs `ceil(width*height/4)` trials and yields the reference fold of the sampled trials; no cell closes and connectivity is kept |
| Maze.GenerateMaze | main.js:89-112 | the result is the carve from (1,1) on the all-wall grid followed by the injection loop's `ceil(width*height/4)` trials over the samples; it has `height` rows of `width` cells, each `'#'` or `'.'`; the border is all wall; every odd lattice cell is open; every open cell is 4-directionally reachable from (1,1) |
| Levels.EnemySpeed | main.js:181 | enemy speed is at most 300, equals 300 from level 11 on, is at least 100 from level 1, and is `100 + 20*(level-1)` up to level 11 |
| Levels.MazeWidth | main.js:184-186 | from level 1 the maze is at least 15 cells wide, and exactly 15 at levels 1-5 |
| Levels.MazeHeight | main.js:184-186 | from level 1 the maze is at least 11 cells high, and exactly 11 at levels 1-5 |
| Levels.EnemySpeedMonotone | main.js:181 | enemy speed never decreases with the level |
| Levels.MazeDimensions | main.js:184-186 | maze sides are odd, at least 3, grow by 2 every five levels, and differ by 4 |
| Levels.EnemyCount | main.js:245 | at least four enemies are created, and exactly four below level 5 |
| Levels.EnemyCountSteps | main.js:245 | the count grows by exactly one every five levels and by at most one per level |
| Levels.ActivationRange | main.js:479 | the charger's activation range is at least five tiles (250), and exactly 250 below level 5 |
| Levels.ActivationRangeSteps | main.js:479 | the charger's activation range grows by one tile every five levels |
| EnemyAi.KindAt | main.js:242-247 | the i-th enemy's kind is the (i mod 4)-th of doge, cheems, pepe, grumpy |
| EnemyAi.Spawn | main.js:245-253 | `create` spawns the enemy count, all active and not charging, with kinds in rotation doge, cheems, pepe, grumpy |
| EnemyAi.ChargerStep | main.js:478-493 | the charger ends up charging iff it is closer than the range, or it was charging and is closer than 1.2 × the range; a charge is scheduled iff it was idle and within range; any change stops it; at 1.2 × the range or beyond it is always stopped; a charging charger within range, or any charger inside the band [range, 1.2·range), is left unchanged |
| EnemyAi.ChargerSettles | main.js:480-493 | the hysteresis does not oscillate: a second step from the same distance changes nothing and schedules no second charge |
| EnemyAi.Think | main.js:440-494 | inactive enemies are skipped; in power mode an active enemy only flees and keeps its `isCharging`; out of power mode a charger takes exactly the hysteresis step `ChargerStep` and a pepe re-steers; only a charger out of power mode can change `isCharging` or schedule a charge |
| EnemyAi.ThinkAll | main.js:439-496 | each enemy gets exactly its own turn; the scheduled charges are exactly those turns that asked for one; none in power mode |
| EnemyAi.SpawnSpot | main.js:408-411 | an accepted cell is an open cell of the maze |
| EnemyAi.SpawnSpotNearFar | main.js:409-410 | a cell centred on the player is never accepted; an open cell more than five tiles away along either axis always is |
| EnemyAi.FindSpawn | main.js:405-413 | the first sampled cell that is open and more than five tiles from the player is chosen, and every earlier sample fails the test |
| Game.UpdateHud | main.js:434 | the high score becomes the larger of itself and the score, and nothing else changes |
| Game.StartLevel | main.js:179-186 | a level starts playing with power mode, boosts, chain and combo reset, base speed, no timers, the player at rest at the start tile, and the level's enemy count; the high score is the larger of the carried one and the score (the `updateHUD` call) |
| Game.NewGame | main.js:170-172 | a new game starts at level 1 with score 0 and three lives; the high score is the stored one, or 0 if that is negative |
| Game.Cancel | main.js:333 | cancelling the chain timer removes every pending copy and keeps every other timer |
| Game.EatDot | main.js:329-335 | a dot adds `10 + 5*c`, where c is the chain before it; the chain grows by one; exactly one chain reset is pending afterwards; no other timer changes; the high score becomes the new score exactly when it beats the old high score |
| Game.EatSteak | main.js:337-349 | a steak adds 50, turns power mode on, resets the combo to 1 and adds a power clear without cancelling earlier ones; the high score becomes the new score exactly when it beats the old high score |
| Game.EatSpecial | main.js:351-381 | bone adds a life; gold steak adds 500; speed sets the boost cap and arms its end; super snack turns on power mode and the snack cap, resets the combo and arms its end; nothing else changes the combo; the player, the enemies, the chain and the level are untouched; the high score becomes the new score exactly when it beats the old high score |
| Game.HitEnemy | main.js:397-428 | in power mode the kill adds `200*combo`, doubles the combo, disables the enemy and arms its respawn; otherwise exactly one life is lost, the score is unchanged, the game ends iff no life remains, and the player is otherwise put back at the start at rest; power mode, both boost flags, the speed cap, the chain and the items are untouched; outside game over the high score becomes the new score exactly when it beats the old one, and at game over it is unchanged |
| Game.ClearPower | main.js:343-347 | a steak's clear turns power mode off even while a snack runs, and leaves the combo alone |
| Game.EndBoost | main.js:360-364 | boost expiry restores the base cap only if no super snack is active |
| Game.EndSnack | main.js:373-378 | snack expiry ends snack and power mode and restores the base cap only if no speed boost is active |
| Game.ResetChain | main.js:334 | the chain reset sets the chain to 0 and changes nothing else |
| Game.RespawnEnemy | main.js:403-417 | a respawn brings back an enemy that is still down, at rest (stopped), keeping its kind and `isCharging`; nothing else changes |
| Game.CommitCharge | main.js:484-489 | the delayed commit sends a still-active charger rushing, and otherwise does nothing |
| Game.Fire | main.js:334-489 | firing a timer removes exactly that timer; only the chain reset changes the chain; only a power clear or a snack end changes power mode; score, lives and combo are untouched |
| Game.AiTick | main.js:437-497 | each enemy takes its own turn; pending timers are kept and only charge commits for existing enemies are added, none in power mode; a commit for enemy i is added exactly when its turn asked for one |
| Game.BoardClear | main.js:308 | the board is clear exactly when the dots, steaks and specials left add up to none |
| Game.LevelCheckAsWritten | main.js:308-312 | as written: on a cleared board every call adds the 1000 bonus and queues another transition (or wins at level 10, leaving the timers) without touching the high score; nothing but the score, the phase and the timers changes |
| Game.LevelCheck | main.js:308-312 | corrected: the bonus is paid once per level, the high score becomes the new score exactly when it beats the old one, and level 10 wins; nothing but the score, the high score, the phase and the timers changes |
| Game.Advance | main.js:311 | the transition starts the next level with score and lives carried over and no timers left; the high score is the larger of the old high score and the score |
| GameProps.StartLevelValid | main.js:179-186 | every freshly started level satisfies the session invariant |
| GameProps.NewGameValid | main.js:170-172 | a new game satisfies the session invariant |
| GameProps.StepValid | main.js:329-435 | every event keeps the invariant: score ≥ 0, high score ≥ score, the combo a power of two, the base cap iff no boost, each active flag with its expiry pending, at most one chain reset (and one while a chain runs), and a respawn pending for each defeated enemy |
| GameProps.FireKeepsOthers | main.js:334 | firing a timer keeps every other pending timer and the at-most-one chain reset |
| GameProps.StepMonotone | main.js:434 | no event lowers the score or the high score |
| GameProps.ChainChangesOnlyByDotOrReset | main.js:330-334 | only a dot, the chain reset firing, or a new level changes the dot chain |
| GameProps.ComboChangesOnlyByPowerItemOrDefeat | main.js:340 | only a steak, a super snack, a new level or a power-mode kill changes the combo; power expiry does not |
| GameProps.EatDots | main.js:330 | n dots in a row lengthen the chain by n |
| GameProps.DotRunScore | main.js:331 | an unbroken run of n dots from chain c adds `10n + 5(n·c + n(n-1)/2)` (stated doubled), the sum of 10, 15, 20, … |
| GameProps.ThreeDotChain | main.js:331 | a fresh chain's first three dots pay 10, 15 and 20 |
| GameProps.ComboRun | main.js:400-402 | three kills after a steak pay 200, 400 and 800 and leave the combo at 8 |
| GameProps.EarlierClearEndsLaterWindow | main.js:343-347 | with two steaks eaten, the first clear ends power mode while the second steak's clear is still pending |
| GameProps.SteakClearInsideSnack | main.js:343-347 | a steak's clear during a super snack ends power mode while the snack and its speed cap continue |
| GameProps.BoostEndsInsideSnack | main.js:360-364 | a boost ending while a super snack runs leaves the current cap in force |
| GameProps.SnackEndsAlone | main.js:373-378 | a snack ending with no boost running restores the base cap |
| GameProps.BoostThenSnackEnds | main.js:360-378 | a speed boost taken during a super snack ends with its 1.5× cap still in force; only the snack ending afterwards restores the base cap |
| GameProps.SnackDuringBoostLowersCap | main.js:357-368 | a super snack eaten during a speed boost lowers the cap from 1.5× to 1.25× the base, still above the base |
| GameProps.BonusPaidEveryFrame | main.js:308-311 | as written, two frames on a cleared board pay the bonus twice and queue two transitions |
| GameProps.WinSkipsHighScore | main.js:308-310 | as written, winning leaves the high score below the final score |
| GameProps.AsWrittenMonotone | main.js:308-311 | even as written, the check never lowers the score or the high score |
| GameProps.BonusPaidOnce | main.js:308-312 | corrected, the check is idempotent, pays at most the one bonus, and keeps the high score at or above the score |

## Left out

- Rendering, menus, text, tweens, tints, haptics and asset loading: presentation with no game rules.
- `localStorage`: the high score is a plain integer. `Game.NewGame` takes the stored value as a parameter.
- Arcade physics (acceleration, drag, colliders, world bounds) and the player's motion between events: a foreign engine with floating-point integration. Overlap and collision callbacks appear as events.
- The steering of doge, cheems and pepe, and the flee direction: floating-point vector maths in the engine. `EnemyAi.Motion` records that an enemy was stopped, fled, rushed, or (for a pepe) re-steered.
- EnemyAi.Think: the motion of a doge or a cheems out of power mode is not tracked. Whether either sets a new velocity depends on its own move clock and on which walls block it, and neither is modelled.
- Random item placement (main.js:217-231): float draws interleaved with rendering. `Game.Items` counts what was placed.
- The respawn position search: it samples without bound and may not terminate. `EnemyAi.FindSpawn` states its acceptance test over a finite stream of samples.
- The 1.5 s semi-transparency after losing a life: presentation only.
- `data.level || 1`: `Game.StartLevel` requires a level of at least 1, which every caller passes.
- Maze sides below 3: `Maze.GenerateMaze` requires both sides to be at least 3, because line 100 writes `maze[1][1]` unconditionally. Every level's sides are at least 11 (`Levels.MazeWidth`, `Levels.MazeHeight`).
- Timer due times: `Game.Fire` lets any pending timer fire next, which over-approximates the real order.
- GameProps.StepValid: the frame event is the corrected check `Game.LevelCheck`, so the invariant is proved for the corrected program only. As written (`Game.LevelCheckAsWritten`), high score ≥ score fails from the moment a level's bonus is paid until the next `Game.StartLevel`, and for good on a win (`GameProps.WinSkipsHighScore`). The score and high score still never drop (`GameProps.AsWrittenMonotone`).
- GameProps.ChainChangesOnlyByDotOrReset: says which events change the chain, not the time order in which timers fire.
- Game.Advance: the new level's items come from the random placement, so they are a parameter.

## Findings

| source | as written | input that shows it | evidently intended | confidence | as-written member | corrected member |
|---|---|---|---|---|---|---|
| main.js:308-311 | the level-complete test runs on every frame, and the board stays empty while the 1.5 s completion message plays, so every frame adds the 1000 bonus again and queues another level start | a cleared board at level 1 with two frames before the message ends: score rises by 2000 and two transitions are pending | the bonus is paid once per level, and one transition is queued | not executed | GameProps.BonusPaidEveryFrame | GameProps.BonusPaidOnce |
| main.js:309-310 | the final level's win path starts the win scene without calling `updateHUD`, so the high score, which the end screen shows, misses the last bonus | level 10, board cleared, high score equal to the score: the win screen shows a high score 1000 below the final score | the high score includes the completion bonus | not executed | GameProps.WinSkipsHighScore | Game.LevelCheck |

=== FILE: enemy_ai.dfy ===
/** The parts of `PlayLevel.enemyAI` (main.js lines 437-497) that are game
    rules rather than vector maths: the power-mode flee override every enemy
    obeys, and the charger's (`'grumpy'`) hysteresis between winding up and
    giving up. The steering of the other three kinds is floating-point vector
    maths inside the physics engine: only the fact that a pepe re-steers on
    every tick is recorded. Also the acceptance test of the respawn search
    (lines 405-413). */
module EnemyAi {
  import Levels
  import Maze

  /** `doge`, `cheems`, `pepe` and `grumpy`, in the order `enemyConfig` lists them. */
  datatype Kind = Doge | Cheems | Pepe | Grumpy

  /** What the AI last did with an enemy's velocity: set it to zero, pointed it
      away from the player, sent it at the player at the charge speed, or
      steered it some other way (vector maths not modelled). */
  datatype Motion = Stopped | Fleeing | Rushing | Steered

  datatype Enemy = Enemy(kind: Kind, active: bool, isCharging: bool, motion: Motion)

  /** The kinds in the order `enemyConfig` lists them (main.js line 242). */
  const Rotation: seq<Kind> := [Doge, Cheems, Pepe, Grumpy]

  /** The kind of the i-th enemy created (line 247): the kinds are used in
      turn, starting again after the fourth. */
  function KindAt(i: int): (k: Kind)
    ensures k == Rotation[i % |Rotation|]
  {
    match i % 4
    case 0 => Doge
    case 1 => Cheems
    case 2 => Pepe
    case _ => Grumpy
  }

  /** The enemies `create` spawns: kinds in rotation, all active, none charging. */
  function Spawn(count: nat): (es: seq<Enemy>)
    ensures |es| == count
    ensures forall i | 0 <= i < count :: es[i].active && !es[i].isCharging && es[i].kind == KindAt(i)
  {
    seq(count, i => Enemy(KindAt(i), true, false, Stopped))
  }

  /** The `'grumpy'` branch: `dist` is the distance from the enemy to the
      player. The second component is true when the delayed charge (400 ms
      later) is scheduled. The contract states the band `dist >= range * 1.2`
      as `5 * dist >= 6 * range`; the real literal `1.2` is exactly 6/5. */
  function ChargerStep(level: int, e: Enemy, dist: real): (r: (Enemy, bool))
    requires dist >= 0.0
    ensures var range := Levels.ActivationRange(level) as real;
      && r.0.kind == e.kind && r.0.active == e.active
      && (r.0.isCharging <==> dist < range || (e.isCharging && 5.0 * dist < 6.0 * range))
      && (r.1 <==> dist < range && !e.isCharging)
      && (r.0 != e ==> r.0.motion == Stopped)
      && (5.0 * dist >= 6.0 * range ==> r.0.motion == Stopped)
      && (dist < range && e.isCharging ==> r == (e, false))
      && (range <= dist && 5.0 * dist < 6.0 * range ==> r == (e, false))
  {
    var range := Levels.ActivationRange(level) as real;
    if dist < range && !e.isCharging then
      (e.(isCharging := true, motion := Stopped), true)
    else if dist >= range * 1.2 then
      (e.(isCharging := false, motion := Stopped), false)
    else
      (e, false)
  }

  /** No oscillation at the boundary: from the same distance a second step
      changes nothing and schedules no second charge. */
  lemma ChargerSettles(level: int, e: Enemy, dist: real)
    requires dist >= 0.0
    ensures var once := ChargerStep(level, e, dist).0;
      ChargerStep(level, once, dist) == (once, false)
  {
  }

  /** One enemy's turn in `enemyAI`. Inactive enemies are skipped; in power
      mode every active enemy flees and its kind's logic is not consulted.
      Out of power mode a pepe always re-steers towards where the player is
      heading (line 476). Whether a doge or a cheems sets a new velocity
      depends on its own clock and on which walls block it, neither of which
      is modelled, so their motion is left as it was. */
  function Think(powerMode: bool, level: int, e: Enemy, dist: real): (r: (Enemy, bool))
    requires dist >= 0.0
    ensures !e.active ==> r == (e, false)
    ensures e.active && powerMode ==> r == (e.(motion := Fleeing), false)
    ensures e.active && !powerMode && e.kind == Grumpy ==> r == ChargerStep(level, e, dist)
    ensures e.active && !powerMode && e.kind == Pepe ==> r == (e.(motion := Steered), false)
    ensures e.active && !powerMode && e.kind in {Doge, Cheems} ==> r == (e, false)
    ensures r.0.kind == e.kind && r.0.active == e.active
    ensures r.1 ==> e.active && !powerMode && e.kind == Grumpy && !e.isCharging && r.0.isCharging
    ensures r.0.isCharging != e.isCharging ==> e.active && !powerMode && e.kind == Grumpy
  {
    if !e.active then (e, false)
    else if powerMode then (e.(motion := Fleeing), false)
    else if e.kind == Grumpy then ChargerStep(level, e, dist)
    else if e.kind == Pepe then (e.(motion := Steered), false)
    else (e, false)
  }

  predicate Distances(es: seq<Enemy>, dists: seq<real>) {
    |dists| == |es| && forall i | 0 <= i < |dists| :: dists[i] >= 0.0
  }

  /** The iteration over the enemy group (line 439): every enemy takes its turn; the
      second component lists, in order, the indices (offset by `base`) whose
      charge was scheduled. */
  function ThinkAll(powerMode: bool, level: int, es: seq<Enemy>, dists: seq<real>, base: nat): (r: (seq<Enemy>, seq<nat>))
    requires Distances(es, dists)
    ensures |r.0| == |es|
    ensures forall i | 0 <= i < |es| :: r.0[i] == Think(powerMode, level, es[i], dists[i]).0
    ensures forall i | 0 <= i < |es| :: (base + i in r.1 <==> Think(powerMode, level, es[i], dists[i]).1)
    ensures forall k | k in r.1 :: base <= k < base + |es|
    ensures powerMode ==> r.1 == []
    decreases |es|
  {
    if es == [] then ([], [])
    else
      var first := Think(powerMode, level, es[0], dists[0]);
      var rest := ThinkAll(powerMode, level, es[1..], dists[1..], base + 1);
      (([first.0] + rest.0), (if first.1 then [base] else []) + rest.1)
  }

  // ---------------------------------------------------------------------------
  // Respawn placement (main.js lines 405-413)
  // ---------------------------------------------------------------------------

  /** The respawn search's acceptance test: the sampled cell is open and its
      centre is more than five tiles from the player at (px, py). The
      distance comparison is done on squares, both sides being non-negative. */
  predicate SpawnSpot(maze: Maze.Grid, cell: (int, int), px: real, py: real): (ok: bool)
    ensures ok ==> Maze.OpenCell(maze, cell.0, cell.1)
  {
    var col, row := cell.0, cell.1;
    && 0 <= row < |maze| && 0 <= col < |maze[row]| && maze[row][col] == Maze.Open
    && var cx := (col * Levels.TileSize + Levels.TileSize / 2) as real;
       var cy := (row * Levels.TileSize + Levels.TileSize / 2 + Levels.HudOffsetY) as real;
       var reach := (Levels.TileSize * 5) as real;
       (cx - px) * (cx - px) + (cy - py) * (cy - py) > reach * reach
  }

  /** The distance test at its two extremes: a cell whose centre is the
      player's position is never chosen, and an open cell more than five tiles
      away along either axis always is. */
  lemma SpawnSpotNearFar(maze: Maze.Grid, cell: (int, int), px: real, py: real)
    ensures var cx := (cell.0 * Levels.TileSize + Levels.TileSize / 2) as real;
      var cy := (cell.1 * Levels.TileSize + Levels.TileSize / 2 + Levels.HudOffsetY) as real;
      && (cx == px && cy == py ==> !SpawnSpot(maze, cell, px, py))
      && (Maze.OpenCell(maze, cell.0, cell.1) && (cx - px > 250.0 || px - cx > 250.0 || cy - py > 250.0 || py - cy > 250.0)
          ==> SpawnSpot(maze, cell, px, py))
  {
  }

  /** The `while (!validPosition)` loop over a finite stream of sampled cells:
      the index of the first acceptable one, or `|cells|` when none of them is
      (the source would go on sampling). */
  function FindSpawn(maze: Maze.Grid, cells: seq<(int, int)>, px: real, py: real): (k: nat)
    ensures k <= |cells|
    ensures k < |cells| ==> SpawnSpot(maze, cells[k], px, py)
    ensures forall j | 0 <= j < k :: !SpawnSpot(maze, cells[j], px, py)
    decreases |cells|
  {
    if cells == [] then 0
    else if SpawnSpot(maze, cells[0], px, py) then 0
    else 1 + FindSpawn(maze, cells[1..], px, py)
  }
}

=== FILE: game.dfy ===
/** The game-state rules of the `PlayLevel` scene (main.js lines 170-435):
    score, lives, level and high score, the power-up flags, the combo
    multiplier and the dot chain, as one immutable record with a pure function
    per event. Phaser's one-shot `delayedCall`s become explicit pending timers
    in `timers`; `Fire` lets ANY pending timer go off next, so every property
    proved here holds whatever order their due times put them in. */
module Game {
  import Levels
  import EnemyAi

  const DotScore := 10
  const DotChainBonus := 5
  const SteakScore := 50
  const GoldSteakScore := 500
  const EnemyDefeatedScore := 200
  const LevelCompleteBonus := 1000
  const InitialLives := 3

  /** The items kept in the `specials` group, by `itemType`. */
  datatype Special = Bone | GoldSteak | SpeedItem | SuperSnack

  /** The player's maximum velocity: `MAX_SPEED`, times 1.5 for a speed boost,
      or times `SUPER_SNACK_SPEED_MULTIPLIER` (1.25) for a super snack. */
  datatype SpeedTier = BaseSpeed | BoostSpeed | SnackSpeed

  function MaxSpeed(t: SpeedTier): real {
    match t
    case BaseSpeed => 250.0
    case BoostSpeed => 250.0 * 1.5
    case SnackSpeed => 250.0 * 1.25
  }

  /** A pending `delayedCall`, named by what it does when it fires, with the
      delay it is scheduled with. */
  datatype Timer =
    | ChainReset              // 2 s after the last dot: the chain starts over
    | PowerClear              // 6 s after a Steak: power mode ends
    | BoostEnd                // 5 s after a speed item: the boost ends
    | SnackEnd                // 10 s after a super snack: the snack ends
    | Respawn(enemy: nat)     // 9 s after a defeat: the enemy comes back
    | ChargeCommit(enemy: nat)// 400 ms after a wind-up: the charger rushes
    | LevelAdvance            // 1.5 s after the completion message: the next level

  /** `PlayLevel` is running, or the scene has moved to `GameOver` or `WinScene`. */
  datatype Phase = Playing | GameOver | Won

  /** The player's position and velocity. Physics moves it; the rules only
      ever put it back at the start. */
  datatype Body = Body(x: real, y: real, vx: real, vy: real)

  /** `INITIAL_PLAYER_POS` at rest: tile (1,1) below the 100-pixel header. */
  const StartBody := Body(75.0, 175.0, 0.0, 0.0)

  /** The uncollected items: dots, steaks and the specials group. */
  datatype Items = Items(dots: nat, steaks: nat, specials: multiset<Special>)

  datatype Session = Session(
    phase: Phase,
    score: int,
    lives: int,
    level: int,
    highScore: int,
    powerMode: bool,
    superSnackActive: bool,
    speedBoostActive: bool,
    comboMultiplier: int,
    dotChain: nat,
    maxSpeed: SpeedTier,
    player: Body,
    enemies: seq<EnemyAi.Enemy>,
    timers: seq<Timer>,
    items: Items)

  // ---------------------------------------------------------------------------
  // Timer list helpers
  // ---------------------------------------------------------------------------

  /** The timers with the one at index i gone (it fired). */
  function Remove(ts: seq<Timer>, i: nat): (r: seq<Timer>)
    requires i < |ts|
    ensures multiset(r) == multiset(ts) - multiset{ts[i]}
    ensures |r| == |ts| - 1
  {
    assert ts == ts[..i] + [ts[i]] + ts[i + 1..];
    ts[..i] + ts[i + 1..]
  }

  /** The timers with every occurrence of `t` cancelled. */
  function Cancel(ts: seq<Timer>, t: Timer): (r: seq<Timer>)
    ensures t !in r
    ensures forall u | u != t :: multiset(r)[u] == multiset(ts)[u]
  {
    if ts == [] then []
    else
      assert ts == [ts[0]] + ts[1..];
      if ts[0] == t then Cancel(ts[1..], t)
      else [ts[0]] + Cancel(ts[1..], t)
  }

  // ---------------------------------------------------------------------------
  // HUD, level set-up and the level parameters
  // ---------------------------------------------------------------------------

  /** `updateHUD`: the only rule it holds is the high-score update (line 434). */
  function UpdateHud(s: Session): (r: Session)
    ensures r.highScore >= s.highScore && r.highScore >= s.score
    ensures r.highScore == s.highScore || r.highScore == s.score
    ensures r == s.(highScore := r.highScore)
  {
    if s.score > s.highScore then s.(highScore := s.score) else s
  }

  /** `PlayLevel.create(data)` for level `level`, carrying over the global
      score, lives and high score. `items` is what the random placement put
      into the new maze. */
  function StartLevel(level: int, score: int, lives: int, highScore: int, items: Items): (r: Session)
    requires level >= 1
    ensures r.phase == Playing && r.level == level && r.items == items
    ensures r.score == score && r.lives == lives
    ensures r.highScore == (if score > highScore then score else highScore)
    ensures !r.powerMode && !r.superSnackActive && !r.speedBoostActive
    ensures r.comboMultiplier == 1 && r.dotChain == 0 && r.maxSpeed == BaseSpeed
    ensures r.player == StartBody && r.timers == []
    ensures |r.enemies| == Levels.EnemyCount(level)
    ensures forall i | 0 <= i < |r.enemies| :: r.enemies[i].active && !r.enemies[i].isCharging
  {
    var count := Levels.EnemyCount(level);
    UpdateHud(Session(Playing, score, lives, level, highScore, false, false, false, 1, 0,
                      BaseSpeed, StartBody, EnemyAi.Spawn(count), [], items))
  }

  /** `GameScene.create`: score 0, three lives, level 1, best score from storage. */
  function NewGame(storedHighScore: int, items: Items): (r: Session)
    ensures r.phase == Playing && r.level == 1 && r.score == 0 && r.lives == InitialLives
    ensures r.highScore == (if storedHighScore < 0 then 0 else storedHighScore)
  {
    StartLevel(1, 0, InitialLives, storedHighScore, items)
  }

  // ---------------------------------------------------------------------------
  // Collection events
  // ---------------------------------------------------------------------------

  /** `eatDot` (lines 329-335): the n-th dot of an unbroken chain is worth
      10 + 5 * (n - 1); the pending chain reset is cancelled and re-armed. */
  function EatDot(s: Session): (r: Session)
    requires s.phase == Playing && s.items.dots > 0
    ensures r.dotChain == s.dotChain + 1
    ensures r.score == s.score + DotScore + DotChainBonus * s.dotChain
    ensures r.items == s.items.(dots := s.items.dots - 1)
    ensures multiset(r.timers)[ChainReset] == 1
    ensures forall t | t != ChainReset :: multiset(r.timers)[t] == multiset(s.timers)[t]
    ensures r.highScore == (if r.score > s.highScore then r.score else s.highScore)
    ensures r == s.(dotChain := r.dotChain, score := r.score, items := r.items, timers := r.timers,
                    highScore := r.highScore)
  {
    var chain := s.dotChain + 1;
    var gained := DotScore + (if chain > 1 then DotChainBonus * (chain - 1) else 0);
    var s1 := UpdateHud(s.(items := s.items.(dots := s.items.dots - 1), dotChain := chain, score := s.score + gained));
    s1.(timers := Cancel(s1.timers, ChainReset) + [ChainReset])
  }

  /** `eatSteak` (lines 337-349): +50, power mode on, the combo back to 1,
      and a clear of power mode scheduled. Earlier clears stay scheduled. */
  function EatSteak(s: Session): (r: Session)
    requires s.phase == Playing && s.items.steaks > 0
    ensures r.score == s.score + SteakScore
    ensures r.powerMode && r.comboMultiplier == 1
    ensures r.timers == s.timers + [PowerClear]
    ensures r.items == s.items.(steaks := s.items.steaks - 1)
    ensures r.highScore == (if r.score > s.highScore then r.score else s.highScore)
    ensures r == s.(score := r.score, powerMode := true, comboMultiplier := 1, timers := r.timers,
                    items := r.items, highScore := r.highScore)
  {
    UpdateHud(s.(items := s.items.(steaks := s.items.steaks - 1), score := s.score + SteakScore,
                 powerMode := true, comboMultiplier := 1, timers := s.timers + [PowerClear]))
  }

  /** `eatSpecial` (lines 351-381), dispatching on the item's `itemType`. */
  function EatSpecial(s: Session, item: Special): (r: Session)
    requires s.phase == Playing && item in s.items.specials
    ensures r.items == s.items.(specials := s.items.specials - multiset{item})
    ensures r.lives == s.lives + (if item == Bone then 1 else 0)
    ensures r.score == s.score + (if item == GoldSteak then GoldSteakScore else 0)
    ensures item == SpeedItem ==> r.speedBoostActive && r.maxSpeed == BoostSpeed && r.timers == s.timers + [BoostEnd]
    ensures item == SuperSnack ==>
      && r.superSnackActive && r.powerMode && r.comboMultiplier == 1 && r.maxSpeed == SnackSpeed
      && r.timers == s.timers + [SnackEnd]
    ensures item in {Bone, GoldSteak} ==> r.timers == s.timers && r.powerMode == s.powerMode && r.maxSpeed == s.maxSpeed
    ensures item != SuperSnack ==> r.comboMultiplier == s.comboMultiplier
    ensures item != SuperSnack ==> r.superSnackActive == s.superSnackActive && r.powerMode == s.powerMode
    ensures item != SpeedItem ==> r.speedBoostActive == s.speedBoostActive
    ensures r.highScore == (if r.score > s.highScore then r.score else s.highScore)
    ensures r.phase == s.phase && r.enemies == s.enemies && r.dotChain == s.dotChain && r.level == s.level
    ensures r.player == s.player
  {
    var s1 := s.(items := s.items.(specials := s.items.specials - multiset{item}));
    var s2 := match item
      case Bone => s1.(lives := s1.lives + 1)
      case GoldSteak => s1.(score := s1.score + GoldSteakScore)
      case SpeedItem => s1.(speedBoostActive := true, maxSpeed := BoostSpeed, timers := s1.timers + [BoostEnd])
      case SuperSnack =>
        s1.(superSnackActive := true, powerMode := true, comboMultiplier := 1, maxSpeed := SnackSpeed,
            timers := s1.timers + [SnackEnd]);
    UpdateHud(s2)
  }

  // ---------------------------------------------------------------------------
  // Enemy contact
  // ---------------------------------------------------------------------------

  /** `hitEnemy` (lines 397-428). In power mode the enemy is defeated for
      200 times the combo, which then doubles, and a respawn is scheduled;
      otherwise the player loses a life and either the game is over or the
      player is put back at the start at rest. */
  function HitEnemy(s: Session, e: nat): (r: Session)
    requires s.phase == Playing && e < |s.enemies| && s.enemies[e].active
    ensures s.powerMode ==>
      && r.score == s.score + EnemyDefeatedScore * s.comboMultiplier
      && r.comboMultiplier == 2 * s.comboMultiplier
      && r.enemies == s.enemies[e := s.enemies[e].(active := false)]
      && r.timers == s.timers + [Respawn(e)]
      && r.lives == s.lives && r.phase == Playing && r.player == s.player
    ensures !s.powerMode ==>
      && r.lives == s.lives - 1 && r.score == s.score
      && (r.phase == GameOver <==> s.lives <= 1)
      && (r.phase == Playing ==> r.player == StartBody)
      && (r.phase != Playing ==> r.player == s.player)
      && r.enemies == s.enemies && r.timers == s.timers && r.comboMultiplier == s.comboMultiplier
    ensures r.highScore == (if r.phase != GameOver && r.score > s.highScore then r.score else s.highScore)
    ensures r.powerMode == s.powerMode && r.dotChain == s.dotChain && r.items == s.items
    ensures r.maxSpeed == s.maxSpeed && r.level == s.level
    ensures r.superSnackActive == s.superSnackActive && r.speedBoostActive == s.speedBoostActive
  {
    if s.powerMode then
      var combo := s.comboMultiplier;
      UpdateHud(s.(enemies := s.enemies[e := s.enemies[e].(active := false)],
                   score := s.score + EnemyDefeatedScore * combo,
                   comboMultiplier := combo * 2,
                   timers := s.timers + [Respawn(e)]))
    else
      var lives := s.lives - 1;
      if lives <= 0 then s.(lives := lives, phase := GameOver)
      else UpdateHud(s.(lives := lives, player := StartBody))
  }

  // ---------------------------------------------------------------------------
  // Timers going off
  // ---------------------------------------------------------------------------

  /** The chain reset (line 334). */
  function ResetChain(s: Session): (r: Session)
    ensures r.dotChain == 0 && r == s.(dotChain := 0)
  {
    s.(dotChain := 0)
  }

  /** A Steak's clear (lines 343-347): power mode off whatever other steak or
      snack is still running; the combo is left alone. */
  function ClearPower(s: Session): (r: Session)
    ensures !r.powerMode && r.comboMultiplier == s.comboMultiplier
    ensures r.superSnackActive == s.superSnackActive && r == s.(powerMode := false)
  {
    s.(powerMode := false)
  }

  /** The end of a speed boost (lines 360-364): the base speed comes back
      only when no super snack is running. */
  function EndBoost(s: Session): (r: Session)
    ensures !r.speedBoostActive
    ensures r.maxSpeed == BaseSpeed <==> !s.superSnackActive || s.maxSpeed == BaseSpeed
    ensures s.superSnackActive ==> r.maxSpeed == s.maxSpeed
    ensures r == s.(speedBoostActive := false, maxSpeed := r.maxSpeed)
  {
    var s1 := s.(speedBoostActive := false);
    if !s1.superSnackActive then s1.(maxSpeed := BaseSpeed) else s1
  }

  /** The end of a super snack (lines 373-378): snack and power mode off; the
      base speed comes back only when no speed boost is running. */
  function EndSnack(s: Session): (r: Session)
    ensures !r.superSnackActive && !r.powerMode && r.comboMultiplier == s.comboMultiplier
    ensures r.maxSpeed == BaseSpeed <==> !s.speedBoostActive || s.maxSpeed == BaseSpeed
    ensures s.speedBoostActive ==> r.maxSpeed == s.maxSpeed
    ensures r == s.(superSnackActive := false, powerMode := false, maxSpeed := r.maxSpeed)
  {
    var s1 := s.(superSnackActive := false, powerMode := false);
    if !s1.speedBoostActive then s1.(maxSpeed := BaseSpeed) else s1
  }

  /** The respawn callback (lines 403-417): an enemy that is still down comes
      back, at rest; its `isCharging` flag survives. Where it comes back is
      `EnemyAi.FindSpawn`'s business. */
  function RespawnEnemy(s: Session, e: nat): (r: Session)
    requires e < |s.enemies|
    ensures |r.enemies| == |s.enemies|
    ensures r.enemies[e].active && r.enemies[e].kind == s.enemies[e].kind
    ensures !s.enemies[e].active ==> r.enemies[e].motion == EnemyAi.Stopped
    ensures r.enemies[e].isCharging == s.enemies[e].isCharging
    ensures s.enemies[e].active ==> r == s
    ensures r == s.(enemies := s.enemies[e := r.enemies[e]])
  {
    if !s.enemies[e].active then
      s.(enemies := s.enemies[e := s.enemies[e].(active := true, motion := EnemyAi.Stopped)])
    else s
  }

  /** The charger's delayed commit (lines 484-489): if still active it rushes
      the player, whether or not power mode started during the wind-up. */
  function CommitCharge(s: Session, e: nat): (r: Session)
    requires e < |s.enemies|
    ensures |r.enemies| == |s.enemies|
    ensures s.enemies[e].active ==> r.enemies[e] == s.enemies[e].(motion := EnemyAi.Rushing)
    ensures !s.enemies[e].active ==> r == s
    ensures r == s.(enemies := s.enemies[e := r.enemies[e]])
  {
    if s.enemies[e].active then
      s.(enemies := s.enemies[e := s.enemies[e].(motion := EnemyAi.Rushing)])
    else s
  }

  /** The enemy a timer refers to, if any, exists. */
  predicate Targets(s: Session, t: Timer) {
    (t.Respawn? ==> t.enemy < |s.enemies|) && (t.ChargeCommit? ==> t.enemy < |s.enemies|)
  }

  /** The pending timer at index i goes off. The level transition is `Advance`. */
  function Fire(s: Session, i: nat): (r: Session)
    requires s.phase == Playing && i < |s.timers| && s.timers[i] != LevelAdvance && Targets(s, s.timers[i])
    ensures multiset(r.timers) == multiset(s.timers) - multiset{s.timers[i]}
    ensures r.score == s.score && r.highScore == s.highScore && r.lives == s.lives && r.phase == Playing
    ensures r.comboMultiplier == s.comboMultiplier && r.items == s.items && r.level == s.level
    ensures r.dotChain != s.dotChain ==> s.timers[i] == ChainReset
    ensures r.powerMode != s.powerMode ==> s.timers[i] in {PowerClear, SnackEnd}
    ensures |r.enemies| == |s.enemies|
  {
    var t := s.timers[i];
    var s1 := s.(timers := Remove(s.timers, i));
    match t
    case ChainReset => ResetChain(s1)
    case PowerClear => ClearPower(s1)
    case BoostEnd => EndBoost(s1)
    case SnackEnd => EndSnack(s1)
    case Respawn(e) => RespawnEnemy(s1, e)
    case ChargeCommit(e) => CommitCharge(s1, e)
  }

  // ---------------------------------------------------------------------------
  // The AI tick and the level-complete check
  // ---------------------------------------------------------------------------

  function ChargeTimers(ks: seq<nat>): (ts: seq<Timer>)
    ensures |ts| == |ks| && forall j | 0 <= j < |ks| :: ts[j] == ChargeCommit(ks[j])
    ensures forall k: nat :: ChargeCommit(k) in ts <==> k in ks
  {
    var ts := seq(|ks|, j requires 0 <= j < |ks| => ChargeCommit(ks[j]));
    forall k: nat ensures ChargeCommit(k) in ts <==> k in ks {
      if k in ks {
        var j :| 0 <= j < |ks| && ks[j] == k;
        assert ts[j] == ChargeCommit(k);
      }
    }
    ts
  }

  /** `enemyAI` (every 500 ms): `dists[i]` is enemy i's distance to the player. */
  function AiTick(s: Session, dists: seq<real>): (r: Session)
    requires s.phase == Playing && EnemyAi.Distances(s.enemies, dists)
    ensures |r.enemies| == |s.enemies|
    ensures forall i | 0 <= i < |s.enemies| ::
      r.enemies[i] == EnemyAi.Think(s.powerMode, s.level, s.enemies[i], dists[i]).0
    ensures s.powerMode ==> r.timers == s.timers
    ensures |r.timers| >= |s.timers| && r.timers[..|s.timers|] == s.timers
    ensures forall j | |s.timers| <= j < |r.timers| :: r.timers[j].ChargeCommit? && r.timers[j].enemy < |s.enemies|
    ensures forall i | 0 <= i < |s.enemies| ::
      ChargeCommit(i) in r.timers[|s.timers|..] <==> EnemyAi.Think(s.powerMode, s.level, s.enemies[i], dists[i]).1
    ensures r == s.(enemies := r.enemies, timers := r.timers)
  {
    var step := EnemyAi.ThinkAll(s.powerMode, s.level, s.enemies, dists, 0);
    var added := ChargeTimers(step.1);
    forall j | 0 <= j < |added| ensures added[j].enemy < |s.enemies| {
      assert step.1[j] in step.1;
    }
    assert (s.timers + added)[|s.timers|..] == added;
    s.(enemies := step.0, timers := s.timers + added)
  }

  /** The three groups have no active member left (line 308). */
  predicate BoardClear(items: Items): (clear: bool)
    ensures clear <==> items.dots + items.steaks + |items.specials| == 0
  {
    items.dots == 0 && items.steaks == 0 && |items.specials| == 0
  }

  /** The level-complete check of `update` (lines 308-312) AS WRITTEN: it runs
      on every frame, so while the board stays empty (the completion message
      plays for 1.5 s before the next level starts) every frame adds the bonus
      again and queues another transition; the final level's win never
      reaches `updateHUD`. */
  function LevelCheckAsWritten(s: Session): (r: Session)
    requires s.phase == Playing
    ensures !BoardClear(s.items) ==> r == s
    ensures BoardClear(s.items) ==> r.score == s.score + LevelCompleteBonus && r.highScore == s.highScore
    ensures BoardClear(s.items) && s.level < Levels.FinalLevel ==> r.timers == s.timers + [LevelAdvance] && r.phase == Playing
    ensures BoardClear(s.items) && s.level >= Levels.FinalLevel ==> r.phase == Won && r.timers == s.timers
    ensures r == s.(score := r.score, phase := r.phase, timers := r.timers)
  {
    if !BoardClear(s.items) then s
    else
      var s1 := s.(score := s.score + LevelCompleteBonus);
      if s.level >= Levels.FinalLevel then s1.(phase := Won)
      else s1.(timers := s1.timers + [LevelAdvance])
  }

  /** The level-complete check as evidently intended: the bonus is paid once
      per level (no transition is pending yet) and the high score sees it. */
  function LevelCheck(s: Session): (r: Session)
    requires s.phase == Playing
    ensures !BoardClear(s.items) || LevelAdvance in s.timers ==> r == s
    ensures BoardClear(s.items) && LevelAdvance !in s.timers ==>
      && r.score == s.score + LevelCompleteBonus
      && r.highScore == (if r.score > s.highScore then r.score else s.highScore)
      && (s.level >= Levels.FinalLevel ==> r.phase == Won && r.timers == s.timers)
      && (s.level < Levels.FinalLevel ==> r.phase == Playing && r.timers == s.timers + [LevelAdvance])
    ensures r.highScore >= s.highScore
    ensures r == s.(score := r.score, highScore := r.highScore, phase := r.phase, timers := r.timers)
  {
    if !BoardClear(s.items) || LevelAdvance in s.timers then s
    else
      var s1 := UpdateHud(s.(score := s.score + LevelCompleteBonus));
      if s.level >= Levels.FinalLevel then s1.(phase := Won)
      else s1.(timers := s1.timers + [LevelAdvance])
  }

  /** The completion message's callback (line 311) restarts the scene at the
      next level, which drops every pending timer of the old level. */
  function Advance(s: Session, i: nat, items: Items): (r: Session)
    requires s.phase == Playing && s.level >= 1 && i < |s.timers| && s.timers[i] == LevelAdvance
    ensures r.level == s.level + 1 && r.score == s.score && r.lives == s.lives && r.timers == []
    ensures r.highScore == (if s.score > s.highScore then s.score else s.highScore)
  {
    StartLevel(s.level + 1, s.score, s.lives, s.highScore, items)
  }
}

=== FILE: game_props.dfy ===
/** Properties of the `PlayLevel` rules across events: the invariant every
    event keeps, what only one event can do, and the scoring sequences the
    game promises. */
module GameProps {
  import Levels
  import EnemyAi
  import opened Game

  /** Everything that can happen to a running level. */
  datatype Event =
    | Dot
    | Steak
    | EatItem(item: Special)
    | Contact(enemy: nat)
    | TimerFires(index: nat)
    | AiRound(dists: seq<real>)
    | Frame
    | NextLevel(index: nat, items: Items)

  predicate Enabled(s: Session, ev: Event) {
    && s.phase == Playing
    && s.level >= 1
    && match ev
       case Dot => s.items.dots > 0
       case Steak => s.items.steaks > 0
       case EatItem(k) => k in s.items.specials
       case Contact(e) => e < |s.enemies| && s.enemies[e].active
       case TimerFires(i) => i < |s.timers| && s.timers[i] != LevelAdvance && Targets(s, s.timers[i])
       case AiRound(d) => EnemyAi.Distances(s.enemies, d)
       case Frame => true
       case NextLevel(i, _) => i < |s.timers| && s.timers[i] == LevelAdvance
  }

  function Step(s: Session, ev: Event): Session
    requires Enabled(s, ev)
  {
    match ev
    case Dot => EatDot(s)
    case Steak => EatSteak(s)
    case EatItem(k) => EatSpecial(s, k)
    case Contact(e) => HitEnemy(s, e)
    case TimerFires(i) => Fire(s, i)
    case AiRound(d) => AiTick(s, d)
    case Frame => LevelCheck(s)
    case NextLevel(i, items) => Advance(s, i, items)
  }

  predicate IsPow2(n: int)
    decreases if n < 0 then 0 else n
  {
    n == 1 || (n > 1 && n % 2 == 0 && IsPow2(n / 2))
  }

  lemma Pow2Positive(n: int)
    requires IsPow2(n)
    ensures n >= 1
  {
  }

  lemma Pow2Double(n: int)
    requires IsPow2(n)
    ensures IsPow2(2 * n)
  {
    Pow2Positive(n);
    assert (2 * n) / 2 == n;
  }

  /** What holds of every running level, between any two events. */
  predicate Valid(s: Session) {
    && s.level >= 1
    && s.score >= 0
    && s.highScore >= s.score
    && (s.phase == Playing ==> s.lives >= 1)
    && IsPow2(s.comboMultiplier)
    // the base speed is in force exactly when neither boost is
    && (s.maxSpeed == BaseSpeed <==> !s.speedBoostActive && !s.superSnackActive)
    // every active flag has an expiry pending
    && (s.powerMode ==> PowerClear in s.timers || SnackEnd in s.timers)
    && (s.speedBoostActive ==> BoostEnd in s.timers)
    && (s.superSnackActive ==> SnackEnd in s.timers)
    // at most one chain reset, and one is pending while a chain runs
    && multiset(s.timers)[ChainReset] <= 1
    && (s.dotChain > 0 ==> ChainReset in s.timers)
    // timers name real enemies, and every defeated enemy has a respawn pending
    && (forall k | 0 <= k < |s.timers| :: Targets(s, s.timers[k]))
    && (forall e | 0 <= e < |s.enemies| :: !s.enemies[e].active ==> Respawn(e) in s.timers)
  }

  lemma StartLevelValid(level: int, score: int, lives: int, highScore: int, items: Items)
    requires level >= 1 && score >= 0 && lives >= 1
    ensures Valid(StartLevel(level, score, lives, highScore, items))
  {
  }

  lemma NewGameValid(storedHighScore: int, items: Items)
    ensures Valid(NewGame(storedHighScore, items))
  {
    StartLevelValid(1, 0, InitialLives, storedHighScore, items);
  }

  /** Appending timers keeps every pending timer pending. */
  lemma AppendKeeps(ts: seq<Timer>, more: seq<Timer>, t: Timer)
    requires t in ts
    ensures t in ts + more
  {
  }

  /** What firing one timer leaves of the others: every other timer is still
      pending, and every pending timer still names a real enemy. */
  lemma FireKeepsOthers(s: Session, i: nat)
    requires Valid(s) && Enabled(s, TimerFires(i))
    ensures forall u | u in s.timers && u != s.timers[i] :: u in Fire(s, i).timers
    ensures forall k | 0 <= k < |Fire(s, i).timers| :: Targets(Fire(s, i), Fire(s, i).timers[k])
    ensures multiset(Fire(s, i).timers)[ChainReset] <= 1
  {
    var t := s.timers[i];
    var r := Fire(s, i);
    var m := multiset(r.timers);
    forall u | u in s.timers && u != t ensures u in r.timers {
      assert multiset(s.timers)[u] > 0;
      assert m[u] == multiset(s.timers)[u];
    }
    forall k | 0 <= k < |r.timers| ensures Targets(r, r.timers[k]) {
      assert r.timers[k] in m;
      assert r.timers[k] in multiset(s.timers);
      var k' :| 0 <= k' < |s.timers| && s.timers[k'] == r.timers[k];
      assert Targets(s, s.timers[k']);
    }
  }

  lemma FireFlagTimerValid(s: Session, i: nat)
    requires Valid(s) && Enabled(s, TimerFires(i))
    requires s.timers[i] in {ChainReset, PowerClear, BoostEnd, SnackEnd}
    ensures Valid(Fire(s, i))
  {
    FireKeepsOthers(s, i);
    var r := Fire(s, i);
    assert r.enemies == s.enemies;
  }

  lemma FireEnemyTimerValid(s: Session, i: nat)
    requires Valid(s) && Enabled(s, TimerFires(i))
    requires s.timers[i].Respawn? || s.timers[i].ChargeCommit?
    ensures Valid(Fire(s, i))
  {
    FireKeepsOthers(s, i);
    var t := s.timers[i];
    var r := Fire(s, i);
    assert r.powerMode == s.powerMode && r.speedBoostActive == s.speedBoostActive;
    assert r.superSnackActive == s.superSnackActive && r.maxSpeed == s.maxSpeed;
    forall e | 0 <= e < |r.enemies| && !r.enemies[e].active ensures Respawn(e) in r.timers {
      assert !s.enemies[e].active;
      assert e != t.enemy || t.ChargeCommit?;
    }
  }

  lemma FireValid(s: Session, i: nat)
    requires Valid(s) && Enabled(s, TimerFires(i))
    ensures Valid(Fire(s, i))
  {
    if s.timers[i] in {ChainReset, PowerClear, BoostEnd, SnackEnd} {
      FireFlagTimerValid(s, i);
    } else {
      FireEnemyTimerValid(s, i);
    }
  }

  lemma AiTickValid(s: Session, d: seq<real>)
    requires Valid(s) && Enabled(s, AiRound(d))
    ensures Valid(AiTick(s, d))
  {
    var r := AiTick(s, d);
    forall u | u in s.timers ensures u in r.timers {
      var k :| 0 <= k < |s.timers| && s.timers[k] == u;
      assert r.timers[k] == u;
    }
    assert multiset(r.timers)[ChainReset] == multiset(s.timers)[ChainReset] by {
      var added := r.timers[|s.timers|..];
      assert r.timers == s.timers + added;
      assert ChainReset !in added;
    }
    forall e | 0 <= e < |r.enemies| && !r.enemies[e].active ensures Respawn(e) in r.timers {
      assert !s.enemies[e].active;
    }
  }

  lemma EatDotValid(s: Session)
    requires Valid(s) && Enabled(s, Dot)
    ensures Valid(EatDot(s))
  {
    var r := EatDot(s);
    forall u | u in s.timers && u != ChainReset ensures u in r.timers {
      assert multiset(s.timers)[u] > 0;
    }
    assert ChainReset in multiset(r.timers);
    forall k | 0 <= k < |r.timers| ensures Targets(r, r.timers[k]) {
      var u := r.timers[k];
      if u != ChainReset {
        assert u in multiset(r.timers);
        assert u in multiset(s.timers);
        var k' :| 0 <= k' < |s.timers| && s.timers[k'] == u;
        assert Targets(s, s.timers[k']);
      }
    }
  }

  lemma EatSpecialValid(s: Session, k: Special)
    requires Valid(s) && Enabled(s, EatItem(k))
    ensures Valid(EatSpecial(s, k))
  {
    if k == SpeedItem || k == SuperSnack {
      EatTimedItemValid(s, k);
    }
  }

  /** The two items that arm an expiry: every earlier timer stays pending. */
  lemma EatTimedItemValid(s: Session, k: Special)
    requires Valid(s) && Enabled(s, EatItem(k)) && (k == SpeedItem || k == SuperSnack)
    ensures Valid(EatSpecial(s, k))
  {
    var r := EatSpecial(s, k);
    var t := if k == SpeedItem then BoostEnd else SnackEnd;
    assert r.timers == s.timers + [t];
    forall u | u in s.timers ensures u in r.timers {
      AppendKeeps(s.timers, [t], u);
    }
    assert multiset(r.timers)[ChainReset] == multiset(s.timers)[ChainReset];
  }

  lemma HitEnemyValid(s: Session, e: nat)
    requires Valid(s) && Enabled(s, Contact(e))
    ensures Valid(HitEnemy(s, e))
  {
    if s.powerMode {
      Pow2Positive(s.comboMultiplier);
      Pow2Double(s.comboMultiplier);
      var r := HitEnemy(s, e);
      forall u | u in s.timers ensures u in r.timers {
        AppendKeeps(s.timers, [Respawn(e)], u);
      }
      assert multiset(r.timers)[ChainReset] == multiset(s.timers)[ChainReset];
    }
  }

  lemma LevelCheckValid(s: Session)
    requires Valid(s) && Enabled(s, Frame)
    ensures Valid(LevelCheck(s))
  {
    var r := LevelCheck(s);
    if r != s && s.level < Levels.FinalLevel {
      forall u | u in s.timers ensures u in r.timers {
        AppendKeeps(s.timers, [LevelAdvance], u);
      }
      assert multiset(r.timers)[ChainReset] == multiset(s.timers)[ChainReset];
    }
  }

  /** Every event keeps a running level valid. */
  lemma StepValid(s: Session, ev: Event)
    requires Valid(s) && Enabled(s, ev)
    ensures Valid(Step(s, ev))
  {
    match ev
    case Dot => EatDotValid(s);
    case Steak =>
      var r := EatSteak(s);
      forall u | u in s.timers ensures u in r.timers {
        AppendKeeps(s.timers, [PowerClear], u);
      }
      assert multiset(r.timers)[ChainReset] == multiset(s.timers)[ChainReset];
    case EatItem(k) => EatSpecialValid(s, k);
    case Contact(e) => HitEnemyValid(s, e);
    case TimerFires(i) => FireValid(s, i);
    case AiRound(d) => AiTickValid(s, d);
    case Frame => LevelCheckValid(s);
    case NextLevel(i, items) => StartLevelValid(s.level + 1, s.score, s.lives, s.highScore, items);
  }

  /** Score only grows and the high score never drops, whatever happens. */
  lemma StepMonotone(s: Session, ev: Event)
    requires Valid(s) && Enabled(s, ev)
    ensures Step(s, ev).score >= s.score
    ensures Step(s, ev).highScore >= s.highScore
  {
    if ev.Contact? && s.powerMode {
      Pow2Positive(s.comboMultiplier);
    }
  }

  /** Only a dot, the chain reset going off, or a new level changes the dot chain. */
  lemma ChainChangesOnlyByDotOrReset(s: Session, ev: Event)
    requires Enabled(s, ev)
    ensures Step(s, ev).dotChain != s.dotChain ==>
      ev.Dot? || ev.NextLevel? || (ev.TimerFires? && s.timers[ev.index] == ChainReset)
  {
  }

  /** Only a Steak, a Super Snack or a new level resets the combo, and only a
      defeat in power mode raises it: power mode running out leaves it alone. */
  lemma ComboChangesOnlyByPowerItemOrDefeat(s: Session, ev: Event)
    requires Enabled(s, ev)
    ensures Step(s, ev).comboMultiplier != s.comboMultiplier ==>
      || ev.Steak? || ev == EatItem(SuperSnack) || ev.NextLevel?
      || (ev.Contact? && s.powerMode)
  {
  }

  // ---------------------------------------------------------------------------
  // Scoring sequences
  // ---------------------------------------------------------------------------

  /** n dots eaten one after the other with no chain reset in between. */
  function EatDots(s: Session, n: nat): (r: Session)
    requires s.phase == Playing && s.items.dots >= n
    ensures r.phase == Playing && r.dotChain == s.dotChain + n
    decreases n
  {
    if n == 0 then s else EatDots(EatDot(s), n - 1)
  }

  /** An unbroken run of n dots pays 10, 15, 20, ... on top of what the chain
      already had: the k-th dot of the chain earns 10 + 5 * (k - 1). Doubled,
      the closed form `10n + 5(n·c + n(n-1)/2)` needs no division. */
  lemma {:induction false} DotRunScore(s: Session, n: nat)
    requires s.phase == Playing && s.items.dots >= n
    ensures 2 * (EatDots(s, n).score - s.score)
      == 2 * DotScore * n + DotChainBonus * (2 * n * s.dotChain + n * (n - 1))
    decreases n
  {
    if n > 0 {
      var s1 := EatDot(s);
      DotRunScore(s1, n - 1);
      RunArithmetic(n, s.dotChain);
    }
  }

  /** The inductive step of `DotRunScore`: the first dot's 10 + 5c plus the
      rest of the run, started from chain c + 1. */
  lemma RunArithmetic(n: int, c: int)
    ensures 20 * (n - 1) + 5 * (2 * (n - 1) * (c + 1) + (n - 1) * (n - 2)) + 2 * (10 + 5 * c)
      == 20 * n + 5 * (2 * n * c + n * (n - 1))
  {
    assert (n - 1) * (c + 1) == n * c + n - c - 1;
    assert (n - 1) * (n - 2) == n * (n - 1) - 2 * (n - 1);
  }

  /** A fresh chain of three dots earns 10, then 15, then 20. */
  lemma ThreeDotChain(s: Session)
    requires s.phase == Playing && s.items.dots >= 3 && s.dotChain == 0
    ensures var s1 := EatDot(s); var s2 := EatDot(s1); var s3 := EatDot(s2);
      && s1.score - s.score == 10 && s2.score - s1.score == 15 && s3.score - s2.score == 20
  {
  }

  /** Three defeats in one power window, right after a Steak, are worth 200,
      400 and 800, leaving the combo at 8. */
  lemma ComboRun(s: Session, a: nat, b: nat, c: nat)
    requires s.phase == Playing && s.items.steaks > 0
    requires a < |s.enemies| && b < |s.enemies| && c < |s.enemies| && a != b && b != c && a != c
    requires s.enemies[a].active && s.enemies[b].active && s.enemies[c].active
    ensures var s1 := EatSteak(s);
      var s2 := HitEnemy(s1, a);
      var s3 := HitEnemy(s2, b);
      var s4 := HitEnemy(s3, c);
      && s2.score - s1.score == 200 && s3.score - s2.score == 400 && s4.score - s3.score == 800
      && s4.comboMultiplier == 8
  {
    var s1 := EatSteak(s);
    var s2 := HitEnemy(s1, a);
    assert s2.enemies[b].active && s2.powerMode;
    var s3 := HitEnemy(s2, b);
    assert s3.enemies[c].active && s3.powerMode;
  }

  // ---------------------------------------------------------------------------
  // Timers as the source arms them
  // ---------------------------------------------------------------------------

  /** A Steak's clear is never cancelled: with a second Steak eaten inside the
      first one's window, the first clear ends power mode while the second
      Steak's clear is still pending. */
  lemma EarlierClearEndsLaterWindow(s: Session)
    requires s.phase == Playing && s.items.steaks >= 2
    ensures var s2 := EatSteak(EatSteak(s));
      var first := |s.timers|;
      && s2.timers[first] == PowerClear && s2.timers[first + 1] == PowerClear
      && !Fire(s2, first).powerMode
      && PowerClear in Fire(s2, first).timers
  {
    var s2 := EatSteak(EatSteak(s));
    var first := |s.timers|;
    var r := Fire(s2, first);
    assert multiset(s2.timers)[PowerClear] >= 2 by {
      assert s2.timers == s.timers + [PowerClear, PowerClear];
    }
    assert multiset(r.timers)[PowerClear] >= 1;
  }

  /** A Steak eaten during a Super Snack: the Steak's clear turns power mode off
      while the snack, and its speed, are still running. */
  lemma SteakClearInsideSnack(s: Session)
    requires s.phase == Playing && SuperSnack in s.items.specials && s.items.steaks > 0
    ensures var s2 := EatSteak(EatSpecial(s, SuperSnack));
      var clear := |s.timers| + 1;
      && s2.timers[clear] == PowerClear
      && !Fire(s2, clear).powerMode && Fire(s2, clear).superSnackActive
      && Fire(s2, clear).maxSpeed == SnackSpeed
  {
  }

  /** A boost ending while a super snack runs leaves the cap as it is. */
  lemma BoostEndsInsideSnack(s: Session, i: nat)
    requires s.phase == Playing && i < |s.timers| && s.timers[i] == BoostEnd && s.superSnackActive
    ensures Fire(s, i).maxSpeed == s.maxSpeed && !Fire(s, i).speedBoostActive
    ensures Fire(s, i).timers == Remove(s.timers, i)
  {
  }

  /** A snack ending with no boost running restores the base cap. */
  lemma SnackEndsAlone(s: Session, i: nat)
    requires s.phase == Playing && i < |s.timers| && s.timers[i] == SnackEnd && !s.speedBoostActive
    ensures Fire(s, i).maxSpeed == BaseSpeed && !Fire(s, i).superSnackActive
  {
  }

  /** A speed boost eaten during a super snack: when the boost ends, its 1.5x
      cap stays in force (the snack is still running, so nothing resets it),
      and only the snack ending afterwards restores the base cap. */
  lemma BoostThenSnackEnds(s: Session)
    requires s.phase == Playing && SuperSnack in s.items.specials
    requires SpeedItem in s.items.specials - multiset{SuperSnack}
    ensures var s2 := EatSpecial(EatSpecial(s, SuperSnack), SpeedItem);
      var boostEnd := |s.timers| + 1;
      var s3 := Fire(s2, boostEnd);
      && s2.timers[boostEnd] == BoostEnd && s3.maxSpeed == BoostSpeed && !s3.speedBoostActive
      && s3.timers[|s.timers|] == SnackEnd
      && Fire(s3, |s.timers|).maxSpeed == BaseSpeed
  {
    var s1 := EatSpecial(s, SuperSnack);
    var s2 := EatSpecial(s1, SpeedItem);
    assert s2.timers == s.timers + [SnackEnd, BoostEnd];
    var i := |s.timers| + 1;
    BoostEndsInsideSnack(s2, i);
    var s3 := Fire(s2, i);
    assert s3.timers == s.timers + [SnackEnd];
    SnackEndsAlone(s3, |s.timers|);
  }

  /** The cap is whichever item set it last: a super snack eaten during a
      speed boost lowers the cap from 1.5x to 1.25x the base speed. */
  lemma SnackDuringBoostLowersCap(s: Session)
    requires s.phase == Playing && SuperSnack in s.items.specials && s.maxSpeed == BoostSpeed
    ensures EatSpecial(s, SuperSnack).maxSpeed == SnackSpeed
    ensures MaxSpeed(EatSpecial(s, SuperSnack).maxSpeed) < MaxSpeed(s.maxSpeed)
    ensures MaxSpeed(BaseSpeed) < MaxSpeed(EatSpecial(s, SuperSnack).maxSpeed)
  {
  }

  // ---------------------------------------------------------------------------
  // The level-complete check
  // ---------------------------------------------------------------------------

  /** As written, two frames on a cleared board before the level changes pay
      the bonus twice and queue two transitions. */
  lemma BonusPaidEveryFrame(s: Session)
    requires s.phase == Playing && BoardClear(s.items) && s.level < Levels.FinalLevel
    ensures var twice := LevelCheckAsWritten(LevelCheckAsWritten(s));
      twice.score == s.score + 2 * LevelCompleteBonus
      && twice.timers == s.timers + [LevelAdvance, LevelAdvance]
  {
  }

  /** As written, winning on the last level leaves the high score behind the
      final score shown by the win screen. */
  lemma WinSkipsHighScore(s: Session)
    requires s.phase == Playing && BoardClear(s.items) && s.level >= Levels.FinalLevel
    requires s.highScore == s.score
    ensures LevelCheckAsWritten(s).phase == Won
    ensures LevelCheckAsWritten(s).highScore < LevelCheckAsWritten(s).score
  {
  }

  /** Even as written the check never lowers the score or the high score. */
  lemma AsWrittenMonotone(s: Session)
    requires s.phase == Playing
    ensures LevelCheckAsWritten(s).score >= s.score
    ensures LevelCheckAsWritten(s).highScore >= s.highScore
  {
  }

  /** Corrected, the check is idempotent: however many frames run before the
      level changes, the bonus is paid once, and the high score keeps up. */
  lemma BonusPaidOnce(s: Session)
    requires s.phase == Playing
    ensures LevelCheck(s).phase == Playing ==> LevelCheck(LevelCheck(s)) == LevelCheck(s)
    ensures LevelCheck(s).score <= s.score + LevelCompleteBonus
    ensures s.highScore >= s.score ==> LevelCheck(s).highScore >= LevelCheck(s).score
  {
  }
}

=== FILE: levels.dfy ===
/** The per-level parameters `PlayLevel.create` derives from the level number
    (main.js lines 181, 184-186 and 245) and the charger's activation range
    (line 479). JavaScript's `Math.floor` of a quotient by a positive constant
    is Dafny's `/` on `int`, which also rounds down. */
module Levels {

  const TileSize := 50
  const HudOffsetY := 100
  const BaseEnemySpeed := 100
  const SpeedIncrementPerLevel := 20
  const MaxEnemySpeed := 300
  const BaseWidth := 15
  const BaseHeight := 11
  const SizeIncreaseInterval := 5
  const FinalLevel := 10

  /** Line 181: the base speed plus one increment for every level after the
      first, capped at the maximum enemy speed. */
  function EnemySpeed(level: int): (speed: int)
    ensures speed <= MaxEnemySpeed
    ensures speed == MaxEnemySpeed <==> level >= 11
    ensures level >= 1 ==> speed >= BaseEnemySpeed
    ensures level <= 11 ==> speed == BaseEnemySpeed + SpeedIncrementPerLevel * (level - 1)
  {
    var raw := BaseEnemySpeed + (level - 1) * SpeedIncrementPerLevel;
    if raw < MaxEnemySpeed then raw else MaxEnemySpeed
  }

  lemma EnemySpeedMonotone(a: int, b: int)
    requires a <= b
    ensures EnemySpeed(a) <= EnemySpeed(b)
  {
  }

  /** The number of times the maze has grown by two cells in each direction. */
  function MazeGrowth(level: int): int {
    (level - 1) / SizeIncreaseInterval
  }

  function MazeWidth(level: int): (w: int)
    ensures level >= 1 ==> w >= BaseWidth
    ensures 1 <= level <= SizeIncreaseInterval ==> w == BaseWidth
  {
    BaseWidth + MazeGrowth(level) * 2
  }

  function MazeHeight(level: int): (h: int)
    ensures level >= 1 ==> h >= BaseHeight
    ensures 1 <= level <= SizeIncreaseInterval ==> h == BaseHeight
  {
    BaseHeight + MazeGrowth(level) * 2
  }

  /** Every level's maze has odd sides of at least 11 and 15 cells, so the
      generator's requirement of sides of at least 3 always holds, and the
      sides grow by exactly two every five levels. */
  lemma MazeDimensions(level: int)
    requires level >= 1
    ensures MazeWidth(level) % 2 == 1 && MazeHeight(level) % 2 == 1
    ensures MazeWidth(level) >= 3 && MazeHeight(level) >= 3
    ensures MazeWidth(level + SizeIncreaseInterval) == MazeWidth(level) + 2
    ensures MazeHeight(level + SizeIncreaseInterval) == MazeHeight(level) + 2
    ensures MazeWidth(level) - MazeHeight(level) == BaseWidth - BaseHeight
  {
    assert (level + SizeIncreaseInterval - 1) / SizeIncreaseInterval == (level - 1) / SizeIncreaseInterval + 1;
  }

  /** Line 245: four enemies plus one for every completed block of five
      levels. The count divides the level itself, where the maze size
      divides the level less one. */
  function EnemyCount(level: int): (n: int)
    ensures level >= 0 ==> n >= 4
    ensures 0 <= level < SizeIncreaseInterval ==> n == 4
  {
    4 + level / SizeIncreaseInterval
  }

  lemma EnemyCountSteps(level: int)
    requires level >= 0
    ensures EnemyCount(level + SizeIncreaseInterval) == EnemyCount(level) + 1
    ensures EnemyCount(level) <= EnemyCount(level + 1) <= EnemyCount(level) + 1
  {
    assert (level + SizeIncreaseInterval) / SizeIncreaseInterval == level / SizeIncreaseInterval + 1;
  }

  /** Line 479: the distance at which a charger winds up, five tiles plus one
      more for every completed block of five levels. */
  function ActivationRange(level: int): (range: int)
    ensures level >= 0 ==> range >= 5 * TileSize
    ensures 0 <= level < 5 ==> range == 5 * TileSize
  {
    TileSize * (5 + level / 5)
  }

  /** The activation range grows by one tile every five levels. */
  lemma ActivationRangeSteps(level: int)
    requires level >= 0
    ensures ActivationRange(level + 5) == ActivationRange(level) + TileSize
  {
    assert (level + 5) / 5 == level / 5 + 1;
  }
}

=== FILE: maze.dfy ===
/** The maze generator of main.js: a randomized depth-first carve on the odd
    lattice followed by loop injection. The grid is a sequence of rows of
    characters, `'#'` for a wall and `'.'` for an open cell, indexed `g[y][x]`
    exactly as the source indexes `maze[y][x]`. Every random choice is a
    parameter, so every property below holds for all of them. */
module Maze {

  type Grid = seq<seq<char>>

  const Wall: char := '#'
  const Open: char := '.'

  /** The four lattice steps, in the order the source lists them before shuffling. */
  datatype Dir = North | South | West | East

  function DX(d: Dir): int {
    match d
    case West => -2
    case East => 2
    case _ => 0
  }

  function DY(d: Dir): int {
    match d
    case North => -2
    case South => 2
    case _ => 0
  }

  /** A shuffle of the four directions: the array sorted by a random comparator is a permutation of it. */
  predicate IsShuffle(p: seq<Dir>) {
    |p| == 4 && North in p && South in p && West in p && East in p
  }

  // ---------------------------------------------------------------------------
  // Grid shape and cells
  // ---------------------------------------------------------------------------

  predicate Shaped(g: Grid, w: int, h: int) {
    |g| == h && forall y | 0 <= y < h :: |g[y]| == w
  }

  /** Cells strictly inside the outer border. */
  predicate Inner(w: int, h: int, x: int, y: int) {
    0 < x < w - 1 && 0 < y < h - 1
  }

  /** Interior cells with both coordinates odd: the cells the carve walks. */
  predicate Lattice(w: int, h: int, x: int, y: int) {
    Inner(w, h, x, y) && x % 2 == 1 && y % 2 == 1
  }

  predicate OpenCell(g: Grid, x: int, y: int) {
    0 <= y < |g| && 0 <= x < |g[y]| && g[y][x] == Open
  }

  /** Every cell is a wall or open. */
  predicate WallsAndFloors(g: Grid) {
    forall y, x | 0 <= y < |g| && 0 <= x < |g[y]| :: g[y][x] == Wall || g[y][x] == Open
  }

  predicate BorderWalls(g: Grid, w: int, h: int)
    requires Shaped(g, w, h)
  {
    forall y, x | 0 <= y < h && 0 <= x < w && !Inner(w, h, x, y) :: g[y][x] == Wall
  }

  /** `r` is `g` with some interior cells opened and nothing else changed. */
  predicate Opens(g: Grid, r: Grid, w: int, h: int) {
    && Shaped(g, w, h)
    && Shaped(r, w, h)
    && forall y, x | 0 <= y < h && 0 <= x < w :: r[y][x] == g[y][x] || (Inner(w, h, x, y) && r[y][x] == Open)
  }

  function AllWalls(w: nat, h: nat): (g: Grid)
    ensures Shaped(g, w, h)
    ensures forall y, x | 0 <= y < h && 0 <= x < w :: g[y][x] == Wall
  {
    seq(h, _ => seq(w, _ => Wall))
  }

  function SetOpen(g: Grid, x: int, y: int): (r: Grid)
    requires 0 <= y < |g| && 0 <= x < |g[y]|
    ensures |r| == |g| && forall j | 0 <= j < |g| :: |r[j]| == |g[j]|
    ensures r[y][x] == Open
    ensures forall j, i | 0 <= j < |g| && 0 <= i < |g[j]| && (i, j) != (x, y) :: r[j][i] == g[j][i]
  {
    g[y := g[y][x := Open]]
  }

  /** The cells of the interior that are still walls; carving shrinks this set. */
  function InnerWalls(g: Grid, w: int, h: int): set<(int, int)>
    requires Shaped(g, w, h)
  {
    set y, x | 0 < y < h - 1 && 0 < x < w - 1 && g[y][x] == Wall :: (x, y)
  }

  lemma OpensTrans(a: Grid, b: Grid, c: Grid, w: int, h: int)
    requires Opens(a, b, w, h) && Opens(b, c, w, h)
    ensures Opens(a, c, w, h)
  {
  }

  lemma OpensShrinks(g: Grid, r: Grid, w: int, h: int)
    requires Opens(g, r, w, h)
    ensures InnerWalls(r, w, h) <= InnerWalls(g, w, h)
  {
    forall c | c in InnerWalls(r, w, h) ensures c in InnerWalls(g, w, h) {
      var x, y := c.0, c.1;
      assert r[y][x] == Wall;
    }
  }

  // ---------------------------------------------------------------------------
  // Reachability from the start cell (1,1)
  // ---------------------------------------------------------------------------

  predicate Adjacent(a: (int, int), b: (int, int)) {
    || (a.0 == b.0 && (a.1 - b.1 == 1 || b.1 - a.1 == 1))
    || (a.1 == b.1 && (a.0 - b.0 == 1 || b.0 - a.0 == 1))
  }

  /** A 4-directional walk through open cells. */
  ghost predicate IsPath(g: Grid, p: seq<(int, int)>) {
    && |p| > 0
    && (forall i | 0 <= i < |p| :: OpenCell(g, p[i].0, p[i].1))
    && (forall i | 0 < i < |p| :: Adjacent(p[i - 1], p[i]))
  }

  ghost predicate Reachable(g: Grid, x: int, y: int) {
    exists p :: IsPath(g, p) && p[0] == (1, 1) && p[|p| - 1] == (x, y)
  }

  /** Every open cell can be reached from (1,1). */
  ghost predicate Connected(g: Grid) {
    forall y, x | OpenCell(g, x, y) :: Reachable(g, x, y)
  }

  /** Opening cells keeps every walk a walk. */
  ghost predicate Grows(g: Grid, r: Grid) {
    forall y, x | OpenCell(g, x, y) :: OpenCell(r, x, y)
  }

  lemma OpensGrows(g: Grid, r: Grid, w: int, h: int)
    requires Opens(g, r, w, h)
    ensures Grows(g, r)
  {
  }

  lemma ReachableGrows(g: Grid, r: Grid, x: int, y: int)
    requires Grows(g, r) && Reachable(g, x, y)
    ensures Reachable(r, x, y)
  {
    var p :| IsPath(g, p) && p[0] == (1, 1) && p[|p| - 1] == (x, y);
    assert IsPath(r, p);
  }

  lemma ReachableStep(g: Grid, ax: int, ay: int, x: int, y: int)
    requires Reachable(g, ax, ay) && Adjacent((ax, ay), (x, y)) && OpenCell(g, x, y)
    ensures Reachable(g, x, y)
  {
    var p :| IsPath(g, p) && p[0] == (1, 1) && p[|p| - 1] == (ax, ay);
    var q := p + [(x, y)];
    assert IsPath(g, q);
  }

  /** Opening a wall next to an open cell keeps a connected grid connected. */
  lemma {:induction false} OpenNextToOpen(g: Grid, x: int, y: int, ax: int, ay: int)
    requires 0 <= y < |g| && 0 <= x < |g[y]|
    requires Connected(g) && OpenCell(g, ax, ay) && Adjacent((ax, ay), (x, y))
    ensures Connected(SetOpen(g, x, y))
  {
    var r := SetOpen(g, x, y);
    assert Grows(g, r);
    forall j, i | OpenCell(r, i, j) ensures Reachable(r, i, j) {
      if (i, j) == (x, y) {
        ReachableGrows(g, r, ax, ay);
        ReachableStep(r, ax, ay, x, y);
      } else {
        assert OpenCell(g, i, j);
        ReachableGrows(g, r, i, j);
      }
    }
  }

  lemma StartConnected(w: nat, h: nat)
    requires w >= 3 && h >= 3
    ensures Connected(SetOpen(AllWalls(w, h), 1, 1))
  {
    var g := SetOpen(AllWalls(w, h), 1, 1);
    forall j, i | OpenCell(g, i, j) ensures Reachable(g, i, j) {
      assert (i, j) == (1, 1);
      var p := [(1, 1)];
      assert IsPath(g, p);
    }
  }

  // ---------------------------------------------------------------------------
  // Carving (main.js `carve`)
  // ---------------------------------------------------------------------------

  /** The lattice neighbour of (x,y) in direction `d` is outside the interior or no longer a wall. */
  predicate StepDone(g: Grid, w: int, h: int, x: int, y: int, d: Dir)
    requires Shaped(g, w, h)
  {
    var nx, ny := x + DX(d), y + DY(d);
    !Inner(w, h, nx, ny) || g[ny][nx] != Wall
  }

  /** Every direction in the shuffle drawn for (x,y) has been dealt with. */
  predicate Expanded(g: Grid, w: int, h: int, order: (int, int) -> seq<Dir>, x: int, y: int)
    requires Shaped(g, w, h)
  {
    forall d | d in order(x, y) :: StepDone(g, w, h, x, y, d)
  }

  /** Every lattice cell that was a wall in `g` and is open in `r` has been expanded in `r`. */
  ghost predicate NewExpanded(g: Grid, r: Grid, w: int, h: int, order: (int, int) -> seq<Dir>)
    requires Shaped(g, w, h) && Shaped(r, w, h)
  {
    forall y, x | Lattice(w, h, x, y) && g[y][x] == Wall && r[y][x] != Wall :: Expanded(r, w, h, order, x, y)
  }

  lemma ExpandedGrows(g: Grid, r: Grid, w: int, h: int, order: (int, int) -> seq<Dir>, x: int, y: int)
    requires Opens(g, r, w, h) && Expanded(g, w, h, order, x, y)
    ensures Expanded(r, w, h, order, x, y)
  {
    forall d | d in order(x, y) ensures StepDone(r, w, h, x, y, d) {
      assert StepDone(g, w, h, x, y, d);
    }
  }

  lemma NewExpandedTrans(a: Grid, b: Grid, c: Grid, w: int, h: int, order: (int, int) -> seq<Dir>)
    requires Opens(a, b, w, h) && Opens(b, c, w, h)
    requires NewExpanded(a, b, w, h, order) && NewExpanded(b, c, w, h, order)
    ensures NewExpanded(a, c, w, h, order)
  {
    forall y, x | Lattice(w, h, x, y) && a[y][x] == Wall && c[y][x] != Wall
      ensures Expanded(c, w, h, order, x, y)
    {
      if b[y][x] != Wall {
        ExpandedGrows(b, c, w, h, order, x, y);
      }
    }
  }

  /** The geometry of one lattice step from an odd interior cell: the cell
      in between is interior, adjacent to both ends and off the lattice. */
  lemma StepGeometry(w: int, h: int, x: int, y: int, d: Dir)
    requires Lattice(w, h, x, y) && Inner(w, h, x + DX(d), y + DY(d))
    ensures Lattice(w, h, x + DX(d), y + DY(d))
    ensures var mx, my := x + DX(d) / 2, y + DY(d) / 2;
      && Inner(w, h, mx, my) && !Lattice(w, h, mx, my)
      && Adjacent((x, y), (mx, my)) && Adjacent((mx, my), (x + DX(d), y + DY(d)))
  {
  }

  lemma SetOpenOpens(g: Grid, w: int, h: int, x: int, y: int)
    requires Shaped(g, w, h) && Inner(w, h, x, y)
    ensures Opens(g, SetOpen(g, x, y), w, h)
  {
  }

  /** One successful step of the carve: open the wall between (x,y) and its
      lattice neighbour in direction `d`, then the neighbour itself. */
  function OpenStep(g: Grid, w: int, h: int, x: int, y: int, d: Dir): (g1: Grid)
    requires Shaped(g, w, h) && Lattice(w, h, x, y)
    requires Inner(w, h, x + DX(d), y + DY(d)) && g[y + DY(d)][x + DX(d)] == Wall
    ensures g1 == StepGrid(g, x, y, d)
    ensures Opens(g, g1, w, h)
    ensures Lattice(w, h, x + DX(d), y + DY(d))
    ensures g1[y + DY(d) / 2][x + DX(d) / 2] == Open
    ensures g1[y + DY(d)][x + DX(d)] == Open
    ensures InnerWalls(g1, w, h) < InnerWalls(g, w, h)
    ensures Connected(g) && OpenCell(g, x, y) ==> Connected(g1)
  {
    StepGridFacts(g, w, h, x, y, d);
    StepGrid(g, x, y, d)
  }

  /** What `OpenStep` promises, proved about the two writes themselves. */
  lemma StepGridFacts(g: Grid, w: int, h: int, x: int, y: int, d: Dir)
    requires Shaped(g, w, h) && Lattice(w, h, x, y)
    requires Inner(w, h, x + DX(d), y + DY(d)) && g[y + DY(d)][x + DX(d)] == Wall
    ensures Lattice(w, h, x + DX(d), y + DY(d))
    ensures Inner(w, h, x + DX(d) / 2, y + DY(d) / 2)
    ensures var g1 := StepGrid(g, x, y, d);
      && Opens(g, g1, w, h)
      && g1[y + DY(d) / 2][x + DX(d) / 2] == Open
      && g1[y + DY(d)][x + DX(d)] == Open
      && InnerWalls(g1, w, h) < InnerWalls(g, w, h)
      && (Connected(g) && OpenCell(g, x, y) ==> Connected(g1))
  {
    var nx, ny := x + DX(d), y + DY(d);
    var mx, my := x + DX(d) / 2, y + DY(d) / 2;
    StepGeometry(w, h, x, y, d);
    assert StepGrid(g, x, y, d) == SetOpen(SetOpen(g, mx, my), nx, ny);
    TwoOpens(g, w, h, mx, my, nx, ny);
    OpenStepShrinks(g, w, h, mx, my, nx, ny);
    OpenStepConnected(g, x, y, mx, my, nx, ny);
  }

  /** Line 96's two writes: the cell between (x,y) and its neighbour in
      direction `d`, then the neighbour. */
  function StepGrid(g: Grid, x: int, y: int, d: Dir): Grid
    requires 0 <= y + DY(d) / 2 < |g| && 0 <= x + DX(d) / 2 < |g[y + DY(d) / 2]|
    requires 0 <= y + DY(d) < |g| && 0 <= x + DX(d) < |g[y + DY(d)]|
  {
    SetOpen(SetOpen(g, x + DX(d) / 2, y + DY(d) / 2), x + DX(d), y + DY(d))
  }

  /** A carve step changes no lattice cell but the neighbour it reaches: the
      other cell it opens lies between two lattice cells. */
  lemma StepGridLatticeFrame(g: Grid, w: int, h: int, x: int, y: int, d: Dir)
    requires Shaped(g, w, h) && Lattice(w, h, x, y) && Inner(w, h, x + DX(d), y + DY(d))
    ensures forall j, i | Lattice(w, h, i, j) && (i, j) != (x + DX(d), y + DY(d)) ::
      StepGrid(g, x, y, d)[j][i] == g[j][i]
  {
    StepGeometry(w, h, x, y, d);
  }

  lemma TwoOpens(g: Grid, w: int, h: int, mx: int, my: int, nx: int, ny: int)
    requires Shaped(g, w, h) && Inner(w, h, mx, my) && Inner(w, h, nx, ny)
    ensures Opens(g, SetOpen(SetOpen(g, mx, my), nx, ny), w, h)
  {
    var g0 := SetOpen(g, mx, my);
    SetOpenOpens(g, w, h, mx, my);
    SetOpenOpens(g0, w, h, nx, ny);
    OpensTrans(g, g0, SetOpen(g0, nx, ny), w, h);
  }

  lemma OpenStepShrinks(g: Grid, w: int, h: int, mx: int, my: int, nx: int, ny: int)
    requires Shaped(g, w, h) && Inner(w, h, mx, my) && Inner(w, h, nx, ny) && g[ny][nx] == Wall
    ensures InnerWalls(SetOpen(SetOpen(g, mx, my), nx, ny), w, h) < InnerWalls(g, w, h)
  {
    var g1 := SetOpen(SetOpen(g, mx, my), nx, ny);
    TwoOpens(g, w, h, mx, my, nx, ny);
    OpensShrinks(g, g1, w, h);
    assert (nx, ny) in InnerWalls(g, w, h);
    assert (nx, ny) !in InnerWalls(g1, w, h);
  }

  lemma OpenStepConnected(g: Grid, x: int, y: int, mx: int, my: int, nx: int, ny: int)
    requires 0 <= my < |g| && 0 <= mx < |g[my]| && 0 <= ny < |g| && 0 <= nx < |g[ny]|
    requires Adjacent((x, y), (mx, my)) && Adjacent((mx, my), (nx, ny))
    ensures Connected(g) && OpenCell(g, x, y) ==> Connected(SetOpen(SetOpen(g, mx, my), nx, ny))
  {
    if Connected(g) && OpenCell(g, x, y) {
      OpenNextToOpen(g, mx, my, x, y);
      OpenNextToOpen(SetOpen(g, mx, my), nx, ny, mx, my);
    }
  }

  /** `carve(x, y)`: try the directions of the shuffle drawn for (x,y) in order. */
  function Carve(g: Grid, w: int, h: int, order: (int, int) -> seq<Dir>, x: int, y: int): (r: Grid)
    requires Shaped(g, w, h) && Lattice(w, h, x, y)
    ensures Opens(g, r, w, h)
    ensures Expanded(r, w, h, order, x, y)
    ensures NewExpanded(g, r, w, h, order)
    ensures Connected(g) && OpenCell(g, x, y) ==> Connected(r)
    decreases InnerWalls(g, w, h), 1, 0
  {
    CarveDirs(g, w, h, order, x, y, order(x, y))
  }

  /** The `for (let [dx, dy] of dirs)` loop of `carve`, from the direction `ds[0]` on. */
  function CarveDirs(g: Grid, w: int, h: int, order: (int, int) -> seq<Dir>, x: int, y: int, ds: seq<Dir>): (r: Grid)
    requires Shaped(g, w, h) && Lattice(w, h, x, y)
    ensures Opens(g, r, w, h)
    ensures forall d | d in ds :: StepDone(r, w, h, x, y, d)
    ensures NewExpanded(g, r, w, h, order)
    ensures Connected(g) && OpenCell(g, x, y) ==> Connected(r)
    decreases InnerWalls(g, w, h), 0, |ds|
  {
    if ds == [] then g
    else
      var nx, ny := x + DX(ds[0]), y + DY(ds[0]);
      if ny > 0 && ny < h - 1 && nx > 0 && nx < w - 1 && g[ny][nx] == Wall then
        var g1 := OpenStep(g, w, h, x, y, ds[0]);
        var g2 := Carve(g1, w, h, order, nx, ny);
        OpensShrinks(g1, g2, w, h);
        var r := CarveDirs(g2, w, h, order, x, y, ds[1..]);
        CarveCombine(g, g1, g2, r, w, h, order, x, y, ds);
        r
      else
        var r := CarveDirs(g, w, h, order, x, y, ds[1..]);
        CarveSkip(g, r, w, h, x, y, ds);
        r
  }

  /** A direction whose neighbour is outside the interior or already open
      stays done however the remaining directions carve. */
  lemma CarveSkip(g: Grid, r: Grid, w: int, h: int, x: int, y: int, ds: seq<Dir>)
    requires Opens(g, r, w, h) && |ds| > 0
    requires !Inner(w, h, x + DX(ds[0]), y + DY(ds[0])) || g[y + DY(ds[0])][x + DX(ds[0])] != Wall
    requires forall d | d in ds[1..] :: StepDone(r, w, h, x, y, d)
    ensures forall d | d in ds :: StepDone(r, w, h, x, y, d)
  {
    forall d | d in ds ensures StepDone(r, w, h, x, y, d) {
      if d != ds[0] {
        assert d in ds[1..];
      }
    }
  }

  /** How the results of one successful step, the recursive carve from the
      neighbour and the remaining directions fit together. */
  lemma CarveCombine(g: Grid, g1: Grid, g2: Grid, r: Grid, w: int, h: int, order: (int, int) -> seq<Dir>,
                     x: int, y: int, ds: seq<Dir>)
    requires Shaped(g, w, h) && Lattice(w, h, x, y) && |ds| > 0
    requires Inner(w, h, x + DX(ds[0]), y + DY(ds[0])) && g[y + DY(ds[0])][x + DX(ds[0])] == Wall
    requires g1 == OpenStep(g, w, h, x, y, ds[0])
    requires Opens(g1, g2, w, h) && Opens(g2, r, w, h)
    requires Expanded(g2, w, h, order, x + DX(ds[0]), y + DY(ds[0]))
    requires NewExpanded(g1, g2, w, h, order) && NewExpanded(g2, r, w, h, order)
    requires forall d | d in ds[1..] :: StepDone(r, w, h, x, y, d)
    requires Connected(g1) && OpenCell(g1, x + DX(ds[0]), y + DY(ds[0])) ==> Connected(g2)
    requires Connected(g2) && OpenCell(g2, x, y) ==> Connected(r)
    ensures Opens(g, r, w, h)
    ensures forall d | d in ds :: StepDone(r, w, h, x, y, d)
    ensures NewExpanded(g, r, w, h, order)
    ensures Connected(g) && OpenCell(g, x, y) ==> Connected(r)
  {
    var nx, ny := x + DX(ds[0]), y + DY(ds[0]);
    StepGridLatticeFrame(g, w, h, x, y, ds[0]);
    OpensTrans(g, g1, g2, w, h);
    OpensTrans(g, g2, r, w, h);
    forall j, i | Lattice(w, h, i, j) && g[j][i] == Wall && g2[j][i] != Wall
      ensures Expanded(g2, w, h, order, i, j)
    {
      if (i, j) != (nx, ny) {
        assert g1[j][i] == g[j][i];
      }
    }
    NewExpandedTrans(g, g2, r, w, h, order);
    assert StepDone(g1, w, h, x, y, ds[0]);
    forall d | d in ds ensures StepDone(r, w, h, x, y, d) {
      if d == ds[0] {
        assert StepDone(g2, w, h, x, y, d);
      } else {
        assert d in ds[1..];
      }
    }
    if Connected(g) && OpenCell(g, x, y) {
      assert OpenCell(g2, x, y);
    }
  }

  // ---------------------------------------------------------------------------
  // Loop injection (main.js lines 101-110)
  // ---------------------------------------------------------------------------

  /** How many of the four orthogonal neighbours of an interior cell are open. */
  function OpenNeighbours(g: Grid, w: int, h: int, x: int, y: int): (n: int)
    requires Shaped(g, w, h) && Inner(w, h, x, y)
    ensures 0 <= n <= 4
  {
    (if g[y - 1][x] == Open then 1 else 0) + (if g[y + 1][x] == Open then 1 else 0)
    + (if g[y][x - 1] == Open then 1 else 0) + (if g[y][x + 1] == Open then 1 else 0)
  }

  /** An open neighbour of a cell that has at least one. */
  lemma OpenNeighbour(g: Grid, w: int, h: int, x: int, y: int) returns (a: (int, int))
    requires Shaped(g, w, h) && Inner(w, h, x, y) && OpenNeighbours(g, w, h, x, y) > 0
    ensures Adjacent(a, (x, y)) && OpenCell(g, a.0, a.1)
  {
    if g[y - 1][x] == Open { a := (x, y - 1); }
    else if g[y + 1][x] == Open { a := (x, y + 1); }
    else if g[y][x - 1] == Open { a := (x - 1, y); }
    else { a := (x + 1, y); }
  }

  /** One trial: the sampled cell opens when it is a wall with at least two open neighbours. */
  function InjectAt(g: Grid, w: int, h: int, x: int, y: int): (r: Grid)
    requires Shaped(g, w, h) && Inner(w, h, x, y)
    ensures Opens(g, r, w, h)
    ensures r[y][x] == Open <==> g[y][x] == Open || (g[y][x] == Wall && OpenNeighbours(g, w, h, x, y) >= 2)
    ensures forall j, i | 0 <= j < h && 0 <= i < w && (i, j) != (x, y) :: r[j][i] == g[j][i]
    ensures Connected(g) ==> Connected(r)
  {
    if g[y][x] == Wall && OpenNeighbours(g, w, h, x, y) >= 2 then
      SetOpenOpens(g, w, h, x, y);
      InjectKeepsConnected(g, w, h, x, y);
      SetOpen(g, x, y)
    else
      g
  }

  lemma InjectKeepsConnected(g: Grid, w: int, h: int, x: int, y: int)
    requires Shaped(g, w, h) && Inner(w, h, x, y) && OpenNeighbours(g, w, h, x, y) > 0
    ensures Connected(g) ==> Connected(SetOpen(g, x, y))
  {
    var a := OpenNeighbour(g, w, h, x, y);
    if Connected(g) {
      OpenNextToOpen(g, x, y, a.0, a.1);
    }
  }

  predicate Samples(w: int, h: int, samples: seq<(int, int)>) {
    forall i | 0 <= i < |samples| :: Inner(w, h, samples[i].0, samples[i].1)
  }

  /** The trials run one after the other: the reference the injection loop is checked against. */
  function InjectAll(g: Grid, w: int, h: int, samples: seq<(int, int)>): (r: Grid)
    requires Shaped(g, w, h) && Samples(w, h, samples)
    ensures Opens(g, r, w, h)
    ensures Connected(g) ==> Connected(r)
    ensures forall y, x | 0 <= y < h && 0 <= x < w && r[y][x] != g[y][x] ::
      g[y][x] == Wall && r[y][x] == Open && (x, y) in samples && OpenNeighbours(r, w, h, x, y) >= 2
    decreases |samples|
  {
    if samples == [] then g
    else
      var prefix := samples[..|samples| - 1];
      var c := samples[|samples| - 1];
      var g1 := InjectAll(g, w, h, prefix);
      var r := InjectAt(g1, w, h, c.0, c.1);
      OpensTrans(g, g1, r, w, h);
      InjectAllStep(g, g1, r, w, h, prefix, c);
      r
  }

  /** Once a cell has two open neighbours, opening more cells keeps it so. */
  lemma NeighboursGrow(g: Grid, r: Grid, w: int, h: int, x: int, y: int)
    requires Opens(g, r, w, h) && Inner(w, h, x, y)
    ensures OpenNeighbours(g, w, h, x, y) <= OpenNeighbours(r, w, h, x, y)
  {
  }

  lemma InjectAllStep(g: Grid, g1: Grid, r: Grid, w: int, h: int, prefix: seq<(int, int)>, c: (int, int))
    requires Opens(g, g1, w, h) && Inner(w, h, c.0, c.1) && r == InjectAt(g1, w, h, c.0, c.1)
    requires forall y, x | 0 <= y < h && 0 <= x < w && g1[y][x] != g[y][x] ::
      g[y][x] == Wall && g1[y][x] == Open && (x, y) in prefix && OpenNeighbours(g1, w, h, x, y) >= 2
    ensures forall y, x | 0 <= y < h && 0 <= x < w && r[y][x] != g[y][x] ::
      g[y][x] == Wall && r[y][x] == Open && (x, y) in prefix + [c] && OpenNeighbours(r, w, h, x, y) >= 2
  {
    forall y, x | 0 <= y < h && 0 <= x < w && r[y][x] != g[y][x]
      ensures g[y][x] == Wall && r[y][x] == Open && (x, y) in prefix + [c] && OpenNeighbours(r, w, h, x, y) >= 2
    {
      if (x, y) == c {
        if g1[y][x] != g[y][x] {
          NeighboursGrow(g1, r, w, h, x, y);
        } else {
          assert r[y][x] == Open;
          NeighboursGrow(g1, r, w, h, x, y);
        }
      } else {
        assert r[y][x] == g1[y][x];
        NeighboursGrow(g1, r, w, h, x, y);
      }
    }
  }

  /** main.js lines 101-110: trials run while their count is below a quarter
      of the grid's area, the i-th on the sampled cell `samples[i]`. `trials`
      is the number of trials run. */
  method InjectLoops(g: Grid, w: int, h: int, samples: seq<(int, int)>) returns (r: Grid, trials: nat)
    requires Shaped(g, w, h) && Samples(w, h, samples)
    requires 4 * |samples| >= w * h
    ensures 4 * (trials - 1) < w * h <= 4 * trials || (trials == 0 && w * h <= 0)
    ensures r == InjectAll(g, w, h, samples[..trials])
    ensures Opens(g, r, w, h)
    ensures Connected(g) ==> Connected(r)
  {
    r := g;
    trials := 0;
    while 4 * trials < w * h
      invariant trials <= |samples|
      invariant trials == 0 || 4 * (trials - 1) < w * h
      invariant r == InjectAll(g, w, h, samples[..trials])
    {
      r := Trial(r, w, h, samples[trials].0, samples[trials].1);
      assert samples[..trials + 1][..trials] == samples[..trials];
      trials := trials + 1;
    }
  }

  /** The body of the injection loop, on the cell sampled for this trial. */
  method Trial(g: Grid, w: int, h: int, x: int, y: int) returns (r: Grid)
    requires Shaped(g, w, h) && Inner(w, h, x, y)
    ensures r == InjectAt(g, w, h, x, y)
  {
    r := g;
    if r[y][x] == Wall {
      var openNeighbours := 0;
      if r[y - 1][x] == Open { openNeighbours := openNeighbours + 1; }
      if r[y + 1][x] == Open { openNeighbours := openNeighbours + 1; }
      if r[y][x - 1] == Open { openNeighbours := openNeighbours + 1; }
      if r[y][x + 1] == Open { openNeighbours := openNeighbours + 1; }
      if openNeighbours >= 2 {
        r := SetOpen(r, x, y);
      }
    }
  }

  // ---------------------------------------------------------------------------
  // generateMaze (main.js lines 89-112)
  // ---------------------------------------------------------------------------

  ghost predicate AllShuffles(order: (int, int) -> seq<Dir>) {
    forall x, y :: IsShuffle(order(x, y))
  }

  /** When every open lattice cell has been expanded with a full shuffle, every
      lattice cell is open: it can be reached from (1,1) east then south. */
  lemma {:induction false} LatticeReached(g: Grid, w: int, h: int, order: (int, int) -> seq<Dir>, x: int, y: int)
    requires Shaped(g, w, h) && AllShuffles(order) && Lattice(w, h, 1, 1) && g[1][1] != Wall
    requires forall j, i | Lattice(w, h, i, j) && g[j][i] != Wall :: Expanded(g, w, h, order, i, j)
    requires Lattice(w, h, x, y)
    ensures g[y][x] != Wall
    decreases x + y
  {
    if x > 1 {
      LatticeReached(g, w, h, order, x - 2, y);
      assert IsShuffle(order(x - 2, y));
      assert StepDone(g, w, h, x - 2, y, East);
    } else if y > 1 {
      LatticeReached(g, w, h, order, x, y - 2);
      assert IsShuffle(order(x, y - 2));
      assert StepDone(g, w, h, x, y - 2, South);
    }
  }

  lemma OpensKeepsBorder(g: Grid, r: Grid, w: int, h: int)
    requires Opens(g, r, w, h) && WallsAndFloors(g) && BorderWalls(g, w, h)
    ensures WallsAndFloors(r) && BorderWalls(r, w, h)
  {
  }

  /** The carve from (1,1) over an all-wall grid with only (1,1) opened. */
  lemma CarveFromStart(w: int, h: int, order: (int, int) -> seq<Dir>)
    requires w >= 3 && h >= 3 && AllShuffles(order)
    ensures var g1 := SetOpen(AllWalls(w, h), 1, 1);
      var g2 := Carve(g1, w, h, order, 1, 1);
      && WallsAndFloors(g2) && BorderWalls(g2, w, h) && Connected(g2)
      && forall j, i | Lattice(w, h, i, j) :: g2[j][i] == Open
  {
    var g0 := AllWalls(w, h);
    var g1 := SetOpen(g0, 1, 1);
    SetOpenOpens(g0, w, h, 1, 1);
    var g2 := Carve(g1, w, h, order, 1, 1);
    StartConnected(w, h);
    OpensKeepsBorder(g1, g2, w, h);
    forall j, i | Lattice(w, h, i, j) && g2[j][i] != Wall ensures Expanded(g2, w, h, order, i, j) {
      if (i, j) != (1, 1) {
        assert g1[j][i] == Wall;
      }
    }
    forall j, i | Lattice(w, h, i, j) ensures g2[j][i] == Open {
      LatticeReached(g2, w, h, order, i, j);
    }
  }

  /** The grid line 100 leaves: (1,1) opened on the all-wall grid, then
      carved from there. */
  function CarvedFromStart(w: int, h: int, order: (int, int) -> seq<Dir>): Grid
    requires w >= 3 && h >= 3
  {
    Carve(SetOpen(AllWalls(w, h), 1, 1), w, h, order, 1, 1)
  }

  /** `generateMaze(width, height)`. `order(x, y)` is the shuffle `carve(x, y)`
      draws (each cell is carved at most once, so one shuffle per cell covers
      every run) and `samples[i]` the cell sampled by the i-th injection trial.
      `carved` is the grid after the carve from (1,1), and `trials` the number
      of injection trials the loop ran on it. */
  method GenerateMaze(width: int, height: int, order: (int, int) -> seq<Dir>, samples: seq<(int, int)>)
    returns (maze: Grid, carved: Grid, trials: nat)
    requires width >= 3 && height >= 3
    requires AllShuffles(order)
    requires Samples(width, height, samples) && 4 * |samples| >= width * height
    ensures carved == CarvedFromStart(width, height, order)
    ensures trials <= |samples|
    ensures 4 * (trials - 1) < width * height <= 4 * trials || (trials == 0 && width * height <= 0)
    ensures maze == InjectAll(carved, width, height, samples[..trials])
    ensures Shaped(maze, width, height)
    ensures WallsAndFloors(maze)
    ensures BorderWalls(maze, width, height)
    ensures Connected(maze)
    ensures forall y, x | Lattice(width, height, x, y) :: maze[y][x] == Open
  {
    maze := AllWalls(width, height);
    maze := SetOpen(maze, 1, 1);
    CarveFromStart(width, height, order);
    carved := Carve(maze, width, height, order, 1, 1);
    maze, trials := InjectLoops(carved, width, height, samples);
    OpensKeepsBorder(carved, maze, width, height);
  }
}
